=== FILE: README.md ===
# Leveraged-futures backtest core, in Dafny

This project models the simulation and risk-gating core of a Binance
crypto-trading bot. The bot runs leveraged USDT-M futures and also has a spot
backtester. The model has seven modules:

- `RiskFutures` models `FuturesRiskManager` (`risk/risk_futures.py`):
  - `approve_trade`, with its ordered rejections, fixed-fractional sizing,
    leverage margin, isolated-margin liquidation estimate and
    liquidation-buffer test;
  - `check_drawdown` against caller-set daily and weekly baselines;
  - `reset_daily` and `reset_weekly`.
- `EngineFutures` models `FuturesBacktestEngine`
  (`backtest/engine_futures.py`):
  - opening locks margin out of cash;
  - on each bar a held position takes exactly one branch, in the order
    liquidation > stop > time stop > funding;
  - closing returns margin + pnl − fee and appends a trade;
  - mark-to-market recomputes equity from cash and the priced positions.
- `KillSwitch` models the one-shot latch in `risk/kill_switch.py` as
  `Inactive | Active(reason, time)`.
- `EngineSpot` models the long-only `BacktestEngine` (`backtest/engine.py`):
  basis-point slippage on every fill, a peak-equity drawdown halt that
  latches, and exit order stop > target > time.
- `Metrics` models both metric versions:
  - `compute_metrics` (`backtest/metrics.py`): drawdown over initial equity,
    and a profit factor with no zero-loss guard;
  - the futures runner's inline block (`backtest/run_futures_backtest.py`):
    drawdown over the running peak, and a profit factor of +∞ when nothing
    lost.
- `FuturesRunner` models the futures runner's loop
  (`backtest/run_futures_backtest.py`). Timestamps run in order, and symbols
  in list order. Before each symbol the drawdown gate is consulted on the
  engine's current equity, and a rejection `break`s out of that timestamp's
  symbols.
- `GatedLoop` is the control shape of that inner loop, stated once for any
  state and step.

Two helper modules carry no source file of their own:

- `Basics` holds shared types (`Option`, `Side`, `Bar`, `ExitReason`) and
  `Quotient`. `Side` is `Long`, `Short` or any other side string, which
  `approve_trade` rejects. `Quotient` is a division whose contract is the
  multiplication it inverts. The metrics divide through it, so their proofs
  need not reason about `/` directly. Elsewhere (sizing, margin, returns,
  the drawdown gate, the liquidation estimate) `/` is written as in the
  source.
- `Dict` is an insertion-ordered association list. It models the Python
  `dict` of open positions: assigning to a held key replaces it in place, a
  new key appends, `pop` removes. Sums over the table (locked margin,
  position value) follow insertion order, as the source's loops do.

Prices and amounts are `real`, and timestamps are `int`. The strategy is an
arbitrary function from a signal context to an optional signal. The candle
table is an arbitrary function from a symbol and a timestamp to a bar. The
runner stamps each bar it hands to `on_candle` with the timestamp it looked
the bar up at (`BarAt`), as the source's `candle.name` is the index
timestamp, so trade times come from the run and not from the table.

## Model

| member | source | states |
|---|---|---|
| `RiskFutures.NewRiskManager` | risk/risk_futures.py:20-41 | a new manager keeps the given limits and, with no baseline yet, approves every equity |
| `RiskFutures.ResetDaily` | risk/risk_futures.py:47-48 | sets the daily baseline to the given equity and leaves the weekly baseline and configuration as they were |
| `RiskFutures.ResetWeekly` | risk/risk_futures.py:50-51 | sets the weekly baseline and leaves the daily baseline and configuration as they were |
| `RiskFutures.CheckDrawdown` | risk/risk_futures.py:53-83 | absent or non-positive equity is approved whatever the baselines; otherwise a set, positive daily baseline whose fractional decline reaches the daily limit rejects with the daily reason before the weekly one is looked at, then the weekly check likewise; else approved with "Drawdown OK"; never carries sizing |
| `RiskFutures.DrawdownGateMonotone` | risk/risk_futures.py:53-83 | the gate is monotone in equity: if it approves some positive equity it approves every higher one |
| `RiskFutures.BreachedMonotone` | risk/risk_futures.py:61-81 | a baseline breached at some equity is breached at every lower equity |
| `RiskFutures.NoBaselineAlwaysApproves` | risk/risk_futures.py:61-83 | unset or non-positive baselines are skipped, so with neither usable every equity is approved |
| `RiskFutures.ResetThenApproves` | risk/risk_futures.py:47-83 | with positive daily and weekly limits, right after both baselines are reset to a positive equity, that equity is approved with "Drawdown OK" |
| `RiskFutures.DailyBreachExample` | risk/risk_futures.py:61-70 | a 10000 day baseline and equity 9899 at the 1% default limit is rejected as a daily breach |
| `RiskFutures.LiquidationPrice` | risk/risk_futures.py:157-176 | the estimate is 1/L − m of the entry price away from the entry: below it for a long, above it for anything else |
| `RiskFutures.LiquidationBracketsEntry` | risk/risk_futures.py:169-176 | the long and short estimates are symmetric about the entry, and when 1/L exceeds the maintenance rate the long estimate lies below a positive entry and the short one above it |
| `RiskFutures.LiquidationExample` | risk/risk_futures.py:169-176 | entry 100 at 2x leverage with 0.5% maintenance gives 50.5 for a long and 149.5 for a short |
| `RiskFutures.ApproveTrade` | risk/risk_futures.py:104-151 | rejections in the source's order, the first failing check deciding the reason: invalid side, open count at the maximum, symbol already open, zero stop distance, allocation cap, liquidation buffer. An approval carries "Trade approved" and a size with size × \|entry − stop\| = equity × risk. Its margin satisfies margin × leverage = size × entry and stays within equity × the per-symbol cap. Its liquidation price is the estimate, which passes the buffer test as written |
| `RiskFutures.StopLossCostsRiskAmount` | risk/risk_futures.py:115-124 | an approved size is positive when equity and risk are, and a stop hit on the losing side loses exactly equity × risk before fees |
| `RiskFutures.SizingExample` | risk/risk_futures.py:119-124 | equity 10000 at 0.15% risk, entry 100 and stop 98 is approved with size 7.5 |
| `RiskFutures.LooseBufferApproves` | risk/risk_futures.py:137-143 | the buffer test as written approves a long with entry 100, stop 55 and liquidation estimate 50.5, whose stop is not 20% clear of the liquidation price |
| `RiskFutures.ApproveTradeCorrected` | risk/risk_futures.py:104-151 | with the buffer applied as the constructor's comment describes: the same rejections in the same order, a trade passing the earlier checks approved exactly when its liquidation estimate lies at least the buffer beyond the stop, and every approval sized as `approve_trade` sizes it |
| `RiskFutures.CorrectedApprovesClearStop` | risk/risk_futures.py:119-151 | the corrected test approves a long at entry 100 with its stop at 98, 7.5 units with a liquidation estimate of 50.5 |
| `RiskFutures.CorrectionOnlyTouchesBuffer` | risk/risk_futures.py:104-128 | the corrected and as-written approvals give the same rejection for every reason other than the liquidation buffer |
| `RiskFutures.CorrectedRejectsCloseStop` | risk/risk_futures.py:137-143 | the corrected test rejects the trade the as-written test lets through, as "Stop too close to liquidation" |
| `Dict.Put` | backtest/engine_futures.py:99-108 | assignment makes the key present with the new value, changes no other key's value, keeps the length for a held key and adds one for a new key, and keeps keys unique |
| `Dict.Pop` | backtest/engine_futures.py:111 | removing a present key shortens the table by one, changes no other key's value, and with unique keys removes exactly that key |
| `EngineFutures.Init` | backtest/engine_futures.py:29-52 | a new engine keeps its configuration, holds nothing, has no trades or curve points, its cash plus locked margin is the initial equity, and it is already marked to market |
| `EngineFutures.Fee` | backtest/engine_futures.py:58-59 | no fee is charged at a zero fee rate |
| `EngineFutures.FeeWithinNotional` | backtest/engine_futures.py:58-59 | at a fee rate in [0, 1] the fee on a non-negative notional lies between zero and the notional |
| `EngineFutures.MarkToMarket` | backtest/engine_futures.py:61-72 | only equity changes, and equity − cash is the insertion-order sum over positions of direction × (latest price − entry) × qty + margin, where a position without a latest price contributes nothing |
| `EngineFutures.MarkToMarketIdempotent` | backtest/engine_futures.py:61-72 | marking twice gives the same engine as marking once |
| `EngineFutures.EquityIsLedgerPlusUnrealized` | backtest/engine_futures.py:61-72 | with every held symbol priced, marked equity is cash plus all locked margin plus all unrealized profit |
| `EngineFutures.AtEntryPricesEquityIsLedger` | backtest/engine_futures.py:61-72 | when every position is priced at its own entry, marked equity is exactly cash plus locked margin |
| `EngineFutures.OpenPosition` | backtest/engine_futures.py:78-108 | a no-op at capacity or when the margin exceeds cash. Otherwise cash drops by exactly the margin and the symbol holds the new position with zero bars held; other symbols are untouched. Cash + Σ margin is unchanged for a new symbol, and the capacity bound and key uniqueness are kept |
| `EngineFutures.OpenOverHeldSymbolLosesMargin` | backtest/engine_futures.py:91-108 | `open_position` does not check whether the symbol is held: called on a held symbol it overwrites the position and the old margin leaves the ledger |
| `EngineFutures.ClosePosition` | backtest/engine_futures.py:110-136 | the position is popped and exactly one trade is appended with the position's side, entry and qty, the exit price, time and reason. The trade's pnl is direction × (exit − entry) × qty minus the fee qty × exit × fee rate, and its return × margin is the pnl before the fee. Cash grows by margin + net pnl, so cash + Σ margin moves by exactly the net pnl |
| `EngineFutures.RoundTripAtEntryCostsFee` | backtest/engine_futures.py:78-136 | opening a new symbol and closing it at its entry price leaves cash lower by exactly the exit fee, records a zero return and leaves the held symbols as they were |
| `EngineFutures.BarActionFor` | backtest/engine_futures.py:155-176 | each branch fires exactly when the earlier ones do not and its own condition holds. Liquidation (long: low ≤ liq, short: high ≥ liq) exits at the liquidation price; else stop exits at the stop; else time stop exits at the close once bars held reach the maximum; else funding charges qty × close × rate when bars held is a multiple of the interval. The position is simply held exactly when none of the four conditions holds. There is never a take-profit exit |
| `EngineFutures.ManagePosition` | backtest/engine_futures.py:150-176 | with the bar counted: an exit appends one trade with that reason, price and time, removes the symbol and moves cash + Σ margin by the net pnl. Any other branch keeps the (one bar older) position and the trades, and debits cash by the funding charge or nothing. Other symbols, prices, curve and equity are untouched |
| `EngineFutures.OnCandle` | backtest/engine_futures.py:142-193 | records the close as the symbol's latest price. Appends exactly one equity point, which is the marked equity after exits and entries. Appends at most one trade and keeps earlier ones. Changes no other symbol's position. Keeps key uniqueness, the position cap and non-zero margins |
| `EngineFutures.OnCandleHeld` | backtest/engine_futures.py:150-176 | for a held symbol, the fired branch decides the result: an exit records one trade with its reason and price, and cash + Σ margin moves by its net pnl; otherwise the position is kept one bar older and the ledger moves by the funding charge only |
| `EngineFutures.OnCandleFlat` | backtest/engine_futures.py:178-193 | for a flat symbol, no trade is recorded and cash + Σ margin is unchanged. Without a signal, at capacity, or with margin over cash, neither positions nor cash change. Otherwise the signalled position is stored and cash drops by its margin |
| `EngineFutures.LiquidationBeatsStop` | backtest/engine_futures.py:155-167 | a bar breaching both the liquidation price and the stop closes as a liquidation at the liquidation price |
| `EngineFutures.ReopenOnSameBar` | backtest/engine_futures.py:151-190 | a symbol closed on a bar is reopened by a signal on that same bar, unless the cash after the close cannot cover the margin |
| `KillSwitch.IsActive` | risk/kill_switch.py:29-30 | the switch is active exactly when it has a reason to report |
| `KillSwitch.Fresh` | risk/kill_switch.py:18-19 | a fresh switch is inactive and has no reason |
| `KillSwitch.Trigger` | risk/kill_switch.py:21-27 | after a trigger the switch is active; an active switch is left exactly as it was; an inactive one records this reason and time |
| `KillSwitch.Reason` | risk/kill_switch.py:32-33 | the reason is absent exactly when nothing has been recorded, and otherwise is the recorded one, with its time |
| `KillSwitch.ActiveIsPermanent` | risk/kill_switch.py:21-30 | no sequence of later triggers changes an active switch |
| `KillSwitch.FirstTriggerWins` | risk/kill_switch.py:21-27 | after any non-empty sequence of triggers on a fresh switch, it is active with the first call's reason and time |
| `KillSwitch.TriggerIdempotent` | risk/kill_switch.py:22 | triggering twice equals triggering once with the first arguments |
| `KillSwitch.ReasonAThenB` | risk/kill_switch.py:21-33 | `trigger("A")` then `trigger("B")` leaves reason "A" |
| `EngineSpot.Init` | backtest/engine.py:20-48 | a new engine keeps its configuration, holds nothing, has no trades or curve points, starts with the initial equity in cash, its peak at its equity and no halt, and is already marked to market |
| `EngineSpot.Fee` | backtest/engine.py:56-57 | no fee is charged at a zero fee rate |
| `EngineSpot.FeeWithinNotional` | backtest/engine.py:56-57 | at a fee rate in [0, 1] the fee on a non-negative notional lies between zero and the notional |
| `EngineSpot.ApplySlippage` | backtest/engine.py:52-54 | a buy fills price × bps / 10000 above the price and a sell the same amount below, so with non-negative inputs buys never fill lower and sells never higher |
| `EngineSpot.UpdateDrawdown` | backtest/engine.py:59-63 | the peak never falls and covers the current equity. The halt is set exactly when it already was or the drawdown from the new peak reaches the limit, so it latches |
| `EngineSpot.MarkToMarket` | backtest/engine.py:65-71 | only equity changes, and equity − cash is the sum of qty × latest price over priced positions |
| `EngineSpot.OpenPosition` | backtest/engine.py:75-109 | a no-op when halted, at capacity, already holding the symbol, with a non-positive stop distance, or when cost + fee exceeds cash. Otherwise qty × (signal entry − stop) = equity × risk, and cash drops by cost + fee at the slipped entry. The stored position has the slipped entry and zero bars held |
| `EngineSpot.ClosePosition` | backtest/engine.py:111-135 | pops the position and appends one trade at the slipped exit. Its pnl is (exit − entry) × qty − exit × qty × fee, cash grows by the cost basis plus that pnl, and return × cost basis = pnl |
| `EngineSpot.ExitFor` | backtest/engine.py:153-160 | stop at the stop when low ≤ stop; else target at the take-profit when high ≥ it; else time at the close when bars held reach the maximum. There is no exit exactly when low is above the stop, high below the target and bars held below the maximum |
| `EngineSpot.ManagePosition` | backtest/engine.py:148-160 | with the bar counted, an exit appends one trade with that reason at the slipped exit price, credits cash with the cost basis plus the trade's pnl, and removes the symbol, the table shrinking by one. No exit leaves cash and trades alone and keeps the position one bar older. Other symbols are untouched |
| `EngineSpot.OnCandle` | backtest/engine.py:139-169 | records the latest price and appends one equity point equal to the marked equity. The peak never falls and a halt never clears. While halted no symbol is added. At most one trade is appended, and key uniqueness and the position cap are kept |
| `EngineSpot.OnCandleHeld` | backtest/engine.py:148-164 | for a held symbol, halted or not, the position one bar older exits exactly when the exit test fires: one trade with that symbol, reason, slipped exit price and the bar's time. Otherwise it stays held and no trade is recorded. Entering records no trade |
| `EngineSpot.AfterEntry` | backtest/engine.py:166-169 | marking to market and the drawdown update leave positions, cash and trades as the entry step left them |
| `EngineSpot.OnCandleEnters` | backtest/engine.py:162-164 | with a signal, positions and cash after the bar are exactly those of `open_position` on the engine the management step left, so its refusals and its slipped-entry position apply whatever the symbol's state |
| `EngineSpot.OpenIgnoresPrices` | backtest/engine.py:75-109 | `open_position` does not read the price cache |
| `EngineSpot.OnCandleFlat` | backtest/engine.py:139-169 | for a flat symbol no trade is recorded, and without a signal, or with one `open_position` refuses, positions and cash are unchanged |
| `EngineSpot.OnCandleFlatOpens` | backtest/engine.py:85-109 | for a flat symbol, an unblocked signal whose cost and fee at the slipped entry fit in cash is stored at the slipped entry with zero bars held, adds exactly its key, and cash pays cost plus fee |
| `EngineSpot.HaltedStillExits` | backtest/engine.py:149-164 | a halt blocks only new positions: a held symbol whose bar fires any exit still closes with that exit's reason and slipped price, and is no longer held |
| `EngineSpot.EnteredAtSlippedPrice` | backtest/engine.py:85-99 | an opened position holds a positive quantity bought at the slipped entry, and its cost and fee came out of cash |
| `EngineSpot.RoundTripNeverGains` | backtest/engine.py:75-135 | with non-negative slippage and a fee rate in [0, 1], buying and selling back at an unchanged price never increases cash |
| `Metrics.Mean` | backtest/metrics.py:17-18 | the mean of an empty selection is absent, which is pandas' NaN; otherwise it scales back to the selection's sum and has its sign |
| `Metrics.WinRate` | backtest/metrics.py:16 | the share of strictly positive returns, in [0, 1] |
| `Metrics.UnguardedProfitFactor` | backtest/metrics.py:19 | gross profit over gross loss when something lost; +∞ for profit over no loss; NaN for zero over zero |
| `Metrics.PeakIsPrefixMax` | backtest/metrics.py:12 | the running peak at index i is the maximum of the curve up to i, and is attained there |
| `Metrics.MaxGapIsMax` | backtest/metrics.py:12 | the maximum drop below the running peak bounds every drop on the curve and is attained |
| `Metrics.ComputeMetrics` | backtest/metrics.py:5-25 | no report for no trades. Otherwise: the count, win rate and mean win and loss of the returns; the unguarded profit factor; max drawdown × initial equity = the largest drop below the running peak, non-negative for positive initial equity; final equity = the curve's last point; return × initial = final − initial |
| `Metrics.RunnerMetrics` | backtest/run_futures_backtest.py:98-116 | the same per-trade fields. The profit factor is gross profit over gross loss, and +∞ exactly when no return is negative. Max drawdown is the largest peak-relative drawdown on the curve, attained at some point. Final equity is the engine's and return × initial = final − initial |
| `Metrics.MaxRelativeDrawdownIsMax` | backtest/run_futures_backtest.py:109-113 | the reported drawdown is at least every point's peak-relative drawdown and equals one of them |
| `Metrics.RelativeDrawdownBounds` | backtest/run_futures_backtest.py:109-113 | for a curve starting positive, the peak-relative drawdown is defined and non-negative, and at most 1 while the curve never goes negative |
| `Metrics.ReportsAgreeOnTradeStatistics` | backtest/run_futures_backtest.py:100-115 | the two reports agree on count, win rate, average win and loss, final equity and return, and on the profit factor whenever something lost |
| `Metrics.ProfitFactorsDifferOnZeroReturns` | backtest/run_futures_backtest.py:105-108 | a single zero return gives NaN from `compute_metrics` and +∞ from the runner |
| `Metrics.DrawdownsDiffer` | backtest/run_futures_backtest.py:109-113 | a curve 100 → 50 with initial equity 200 gives 0.25 against initial equity and 0.5 against the peak |
| `GatedLoop.Run` | backtest/run_futures_backtest.py:66-74 | the loop processes at most all items; stopping early means the gate rejected the state reached; a gate closed at the start processes nothing, and one open at the start processes at least the first item |
| `FuturesRunner.ContextFor` | backtest/run_futures_backtest.py:76-83 | the strategy is told the symbol is open exactly when the engine holds it, and sees the engine's equity and held symbols |
| `FuturesRunner.StepFeedsSignal` | backtest/run_futures_backtest.py:76-89 | a step hands the symbol's bar, stamped with the timestamp it was looked up at, and the strategy's signal for the engine's current context to `on_candle` |
| `FuturesRunner.StepOpensSignalled` | backtest/run_futures_backtest.py:76-89 | a flat symbol below capacity whose strategy signals a margin within cash ends the step holding exactly the signalled position, with cash lower by its margin |
| `FuturesRunner.Step` | backtest/run_futures_backtest.py:76-89 | a symbol's step prices that symbol at its bar's close, appends one equity point and keeps every other symbol's price and position. Earlier trades and the configuration are kept, and so are key uniqueness and the position cap |
| `FuturesRunner.ProcessSymbols` | backtest/run_futures_backtest.py:66-89 | one timestamp's symbols: the number processed is at most all of them, each adding one equity point, and stopping early means the gate rejects the engine reached. A gate closed on entry processes nothing, and one open on entry processes at least the first symbol; with neither baseline set every symbol is processed. Trades only grow |
| `FuturesRunner.StopInPrefixSkipsRest` | backtest/run_futures_backtest.py:66-74 | symbols are processed in list order: a rejection inside a prefix means nothing after it is processed |
| `FuturesRunner.PrefixThenRest` | backtest/run_futures_backtest.py:66-89 | a prefix processed in full hands its engine to the symbols that follow it |
| `FuturesRunner.UnvisitedPriceUntouched` | backtest/run_futures_backtest.py:66-89 | a symbol the timestamp did not reach keeps its latest price |
| `FuturesRunner.ProcessedSymbolPriced` | backtest/run_futures_backtest.py:66-89 | every processed symbol ends priced at its own bar's close at this timestamp |
| `FuturesRunner.UnvisitedSymbolUntouched` | backtest/run_futures_backtest.py:66-89 | a symbol the timestamp did not reach keeps its position |
| `FuturesRunner.RunFrom` | backtest/run_futures_backtest.py:65-89 | the run over all timestamps keeps the engine able to take every bar and keeps its configuration |
| `FuturesRunner.RunExtendsCurve` | backtest/run_futures_backtest.py:65-89 | the run only appends to the equity curve |
| `FuturesRunner.RunCurveBounded` | backtest/run_futures_backtest.py:65-89 | the run appends at most one equity point per timestamp and symbol |
| `FuturesRunner.RunExtendsTrades` | backtest/run_futures_backtest.py:65-89 | the run only appends to the trade log |
| `FuturesRunner.RunKeepsPositionLimits` | backtest/run_futures_backtest.py:65-89 | the run keeps one position per symbol and never more than the configured maximum |
| `FuturesRunner.HaltIsPermanent` | backtest/run_futures_backtest.py:70-74 | once the gate rejects the engine's equity, the rest of the run leaves the engine exactly as it is: equity only moves inside `on_candle`, so every later timestamp is visited and rejects again at its first symbol |
| `FuturesRunner.HaltedTimestampEndsRun` | backtest/run_futures_backtest.py:70-74 | a timestamp cut short by the gate leaves the engine the run ends with |
| `FuturesRunner.NoBaselineProcessesEverything` | backtest/run_futures_backtest.py:65-89 | with neither baseline set every timestamp processes every symbol, so the curve grows by exactly one point per timestamp and symbol |
| `FuturesRunner.Results` | backtest/run_futures_backtest.py:91-116 | no trades gives no metrics. A zero running peak, where the float division fails, is reported as such. Otherwise the runner's metrics over the trades' returns, the curve and the engine's final equity, with the trade count and final equity as the engine holds them |
| `FuturesRunner.Backtest` | backtest/run_futures_backtest.py:39-116 | the engine returned is the run over all timestamps from the default engine at 2x leverage, gated by the manager whose baselines were reset to the initial equity. Its curve has at most one point per timestamp and symbol, and at least one when the initial equity is positive and there is a bar to take. It ends with unique keys and at most the maximum positions, and its outcome is the results block on it |
| `FuturesRunner.FirstRunRecords` | backtest/run_futures_backtest.py:61-89 | with a positive initial equity and at least one timestamp and symbol, the run records at least one equity point |
| `FuturesRunner.FirstCheckPasses` | backtest/run_futures_backtest.py:61-72 | with both baselines reset to a positive initial equity, the first gate check of the run approves |

## Left out

- The live loop, the exchange broker, candle loading and caching, alerts, the environment and API scripts, and every strategy are out of scope. The strategy is an arbitrary function of what it is shown. Its price history is represented by the bar's timestamp instead of the 400-bar data-frame slice.
- Timestamp alignment across symbols, the 300-bar warm-up and the "Not enough data" assertion are left out. The runner takes the aligned timestamps it is to simulate as input.
- Printing the results is left out.
- `results()` builds a data frame of the trades. The model uses the trade sequence itself; the runner's `return_pct` column is `FuturesRunner.Returns`.
- IEEE floats are left out: amounts are exact reals. NaN and +∞ appear only where the source relies on them: the profit factor, the NaN mean of an empty selection, and the zero-peak division in the runner's drawdown (`Outcome.ZeroPeak`).
- Each division the source performs has a precondition. For futures these are leverage ≠ 0, margin ≠ 0 on a closed position and a non-zero funding interval. For spot they are a positive peak and entry × qty ≠ 0 on a closed position. For metrics they are initial equity ≠ 0. Where Python would raise `ZeroDivisionError` instead, the model does not follow that path.
- FuturesRunner.RunFrom: it requires every strategy signal to carry a non-zero margin (`SaneStrategy`). Otherwise a later close would divide by zero, which the source does not guard.
- FuturesRunner.Step: an engine that could not take a bar is returned unchanged. The runner never reaches one, since every run starts from an engine that can.
- The kill switch's wall-clock time is a parameter. No engine or risk check consults the switch, in the source or in the model.
- EngineFutures.ClosePosition: the futures trade's entry time is not stored, because the source always records `None`.
- Candle open and volume are left out, since no modelled code reads them.
- The optional `RiskDecision` fields are one `Sizing` value that is present exactly on approval.
- EngineSpot.RoundTripNeverGains: it assumes a fee rate of at most 1. Above that the sale's fee would exceed its proceeds and the lemma's inequality no longer follows.
- `compute_metrics` measures drawdown against initial equity and has no zero-loss guard on its profit factor, while the runner's inline metrics are peak-relative and report +∞ when nothing lost. The model keeps both versions apart (`Metrics.ComputeMetrics`, `Metrics.RunnerMetrics`).
- RiskFutures.ApproveTrade: it takes the open-position table as its set of symbols, because only its size and membership are read.

## Findings

| source | as written | input that shows it | evidently intended | confidence | as-written member | corrected member |
|---|---|---|---|---|---|---|
| risk/risk_futures.py:137-143 | a long is rejected only when liquidation ≥ stop × (1 + buffer), and a short only when liquidation ≤ stop × (1 − buffer). For a long the liquidation price sits below the stop, so the test almost never fires | default configuration, equity 10000, long entry 100, stop 55: the liquidation estimate is 50.5, under 9% below the stop, and the trade is approved | the constructor's comment asks for the stop to be 20% away from liquidation. A long should be rejected when liquidation > stop × (1 − buffer), and a short when liquidation < stop × (1 + buffer) | medium; not executed | `RiskFutures.LooseBufferApproves` | `RiskFutures.ApproveTradeCorrected` |

=== FILE: basics.dfy ===
/** Shared vocabulary of the trading core: optional values, symbols, timestamps,
    position sides, OHLC bars and the reasons a position can be closed. */
module Basics {

  /** A value that may be absent (Python's `None`). */
  datatype Option<+T> = None | Some(value: T)

  /** A market symbol such as "BTC/USDT". */
  type Symbol = string

  /** Candle timestamps are opaque to the core: it only stores and copies them. */
  type Timestamp = int

  /** A side string that is neither "long" nor "short". */
  type OtherTag = t: string | t != "long" && t != "short" witness "flat"

  /** The side a signal or position carries. The source keeps it as a string;
      "long" and "short" are `Long` and `Short`, and every other string is
      kept as `Other`, so each string has exactly one representation. */
  datatype Side = Long | Short | Other(tag: OtherTag)

  /** +1 for a long position and -1 for anything else, as the futures engine
      computes it (`1 if side == "long" else -1`). */
  function Direction(side: Side): real
  {
    if side == Long then 1.0 else -1.0
  }

  /** One OHLC candle; only high, low and close are read by the engines. */
  datatype Bar = Bar(time: Timestamp, high: real, low: real, close: real)

  /** Why a position was closed; recorded on every trade. */
  datatype ExitReason = Liquidation | Stop | Target | Time

  function Abs(x: real): real
  {
    if x < 0.0 then -x else x
  }

  function Max(a: real, b: real): real
  {
    if a < b then b else a
  }

  /** `q` is `a / b`: multiplying it back by `b` gives `a`. */
  predicate IsRatio(q: real, a: real, b: real)
  {
    q * b == a
  }

  /** Real division `a / b` together with the facts about it the solver does
      not find unaided: it undoes multiplication by `b`, keeps the sign of `a`
      for positive `b`, and stays at most 1 when `a <= b`. */
  function Quotient(a: real, b: real): (q: real)
    requires b != 0.0
    ensures IsRatio(q, a, b)
    ensures b > 0.0 ==> (a > 0.0 ==> q > 0.0) && (a == 0.0 ==> q == 0.0) && (a < 0.0 ==> q < 0.0)
    ensures b > 0.0 && a <= b ==> q <= 1.0
  {
    QuotientTimesDivisor(a, b);
    if b > 0.0 && a > 0.0 then PositiveQuotient(a, b); a / b
    else if b > 0.0 && a < 0.0 then NegativeQuotient(a, b); a / b
    else if b > 0.0 && a <= b then FractionAtMostOne(a, b); a / b
    else a / b
  }

  lemma QuotientTimesDivisor(a: real, b: real)
    requires b != 0.0
    ensures (a / b) * b == a
  {
  }

  lemma PositiveQuotient(a: real, b: real)
    requires a > 0.0 && b > 0.0
    ensures a / b > 0.0
  {
  }

  lemma NegativeQuotient(a: real, b: real)
    requires a < 0.0 && b > 0.0
    ensures a / b < 0.0
  {
  }

  lemma FractionAtMostOne(a: real, b: real)
    requires b > 0.0 && a <= b
    ensures a / b <= 1.0
  {
  }

  lemma NonNegativeProduct(a: real, b: real)
    requires a >= 0.0 && b >= 0.0
    ensures a * b >= 0.0
  {
  }
}

=== FILE: dict.dfy ===
/** An insertion-ordered table keyed by symbol, modelling the Python `dict`
    the engines keep their open positions in: assigning to an existing key
    replaces its value in place, assigning to a new key appends, and `pop`
    removes the entry. Iteration (and so every sum over the table) follows
    insertion order. */
module Dict {
  import opened Basics

  datatype Entry<V> = Entry(key: Symbol, value: V)

  type Dict<V> = seq<Entry<V>>

  /** The keys present in the table. */
  function Keys<V>(d: Dict<V>): set<Symbol>
  {
    if |d| == 0 then {} else {d[0].key} + Keys(d[1..])
  }

  /** No key occurs twice: the shape every Python dict has. */
  predicate UniqueKeys<V>(d: Dict<V>)
  {
    |d| == 0 || (d[0].key !in Keys(d[1..]) && UniqueKeys(d[1..]))
  }

  /** `d.get(k)`: the value stored under `k`, if any. */
  function Get<V>(d: Dict<V>, k: Symbol): (r: Option<V>)
    ensures r.Some? <==> k in Keys(d)
  {
    if |d| == 0 then None
    else if d[0].key == k then Some(d[0].value)
    else Get(d[1..], k)
  }

  /** `d[k]` for a key known to be present. */
  function Lookup<V>(d: Dict<V>, k: Symbol): (v: V)
    requires k in Keys(d)
    ensures Get(d, k) == Some(v)
  {
    if d[0].key == k then d[0].value else Lookup(d[1..], k)
  }

  /** `d[k] = v`: replaces the value of an existing key where it stands, or
      appends a new entry at the end. */
  function Put<V>(d: Dict<V>, k: Symbol, v: V): (r: Dict<V>)
    ensures Keys(r) == Keys(d) + {k}
    ensures Get(r, k) == Some(v)
    ensures forall k' :: k' != k ==> Get(r, k') == Get(d, k')
    ensures |r| == if k in Keys(d) then |d| else |d| + 1
    ensures UniqueKeys(d) ==> UniqueKeys(r)
  {
    if |d| == 0 then [Entry(k, v)]
    else if d[0].key == k then [Entry(k, v)] + d[1..]
    else [d[0]] + Put(d[1..], k, v)
  }

  /** `d.pop(k)` for a key known to be present: removes its entry. */
  function Pop<V>(d: Dict<V>, k: Symbol): (r: Dict<V>)
    requires k in Keys(d)
    ensures |r| == |d| - 1
    ensures forall k' :: k' != k ==> Get(r, k') == Get(d, k')
    ensures Keys(r) <= Keys(d)
    ensures UniqueKeys(d) ==> UniqueKeys(r) && Keys(r) == Keys(d) - {k}
  {
    if d[0].key == k then d[1..] else [d[0]] + Pop(d[1..], k)
  }

  /** The sum of `f` over the entries, in insertion order. */
  function Sum<V>(d: Dict<V>, f: Entry<V> -> real): real
  {
    if |d| == 0 then 0.0 else f(d[0]) + Sum(d[1..], f)
  }

  /** `p` holds of every stored value. */
  predicate Every<V>(d: Dict<V>, p: V -> bool)
  {
    |d| == 0 || (p(d[0].value) && Every(d[1..], p))
  }

  /** Removing an entry takes exactly its own term out of a sum. */
  lemma {:induction false} SumPop<V>(d: Dict<V>, k: Symbol, f: Entry<V> -> real)
    requires k in Keys(d)
    ensures Sum(d, f) == Sum(Pop(d, k), f) + f(Entry(k, Lookup(d, k)))
  {
    if d[0].key != k {
      SumPop(d[1..], k, f);
      assert Pop(d, k)[1..] == Pop(d[1..], k);
    }
  }

  /** Assigning to a key replaces its term in a sum, or adds one for a new key. */
  lemma {:induction false} SumPut<V>(d: Dict<V>, k: Symbol, v: V, f: Entry<V> -> real)
    ensures k in Keys(d) ==> Sum(Put(d, k, v), f) == Sum(Pop(d, k), f) + f(Entry(k, v))
    ensures k !in Keys(d) ==> Sum(Put(d, k, v), f) == Sum(d, f) + f(Entry(k, v))
  {
    if |d| == 0 {
      assert Put(d, k, v) == [Entry(k, v)];
      assert Sum(Put(d, k, v), f) == f(Entry(k, v)) + Sum(Put(d, k, v)[1..], f);
    } else if d[0].key == k {
      assert Put(d, k, v)[1..] == d[1..];
    } else {
      SumPut(d[1..], k, v, f);
      assert Put(d, k, v)[1..] == Put(d[1..], k, v);
      if k in Keys(d) {
        assert Pop(d, k)[1..] == Pop(d[1..], k);
      }
    }
  }

  /** Sums are linear in the summand. */
  lemma {:induction false} SumAdd<V>(d: Dict<V>, f: Entry<V> -> real, g: Entry<V> -> real, h: Entry<V> -> real)
    requires forall e :: h(e) == f(e) + g(e)
    ensures Sum(d, h) == Sum(d, f) + Sum(d, g)
  {
    if |d| > 0 {
      SumAdd(d[1..], f, g, h);
    }
  }

  /** A sum whose summand is zero on every entry is zero. */
  lemma {:induction false} SumZero<V>(d: Dict<V>, f: Entry<V> -> real)
    requires forall i :: 0 <= i < |d| ==> f(d[i]) == 0.0
    ensures Sum(d, f) == 0.0
  {
    if |d| > 0 {
      assert f(d[0]) == 0.0;
      assert forall i :: 0 <= i < |d[1..]| ==> d[1..][i] == d[i + 1];
      SumZero(d[1..], f);
    }
  }

  /** A property of every value holds of each one looked up. */
  lemma {:induction false} EveryLookup<V>(d: Dict<V>, p: V -> bool, k: Symbol)
    requires Every(d, p) && k in Keys(d)
    ensures p(Lookup(d, k))
  {
    if d[0].key != k {
      EveryLookup(d[1..], p, k);
    }
  }

  /** Storing a value with the property keeps it true of every value. */
  lemma {:induction false} EveryPut<V>(d: Dict<V>, p: V -> bool, k: Symbol, v: V)
    ensures Every(d, p) && p(v) ==> Every(Put(d, k, v), p)
  {
    if !(Every(d, p) && p(v)) {
    } else if |d| == 0 {
      assert Put(d, k, v)[1..] == [];
    } else if d[0].key == k {
      assert Put(d, k, v)[1..] == d[1..];
    } else {
      EveryPut(d[1..], p, k, v);
      assert Put(d, k, v)[1..] == Put(d[1..], k, v);
    }
  }

  /** Removing an entry keeps a property of every value. */
  lemma {:induction false} EveryPop<V>(d: Dict<V>, p: V -> bool, k: Symbol)
    requires k in Keys(d)
    ensures Every(d, p) ==> Every(Pop(d, k), p)
  {
    if Every(d, p) && d[0].key != k {
      EveryPop(d[1..], p, k);
      assert Pop(d, k)[1..] == Pop(d[1..], k);
    }
  }
}

=== FILE: engine_futures.dfy ===
/** The futures backtest engine: isolated-margin long/short positions keyed by
    symbol, each CLOSED or OPEN, driven one OHLC bar at a time. Opening locks
    margin out of cash; each bar a held position takes exactly one branch —
    liquidation, stop, time stop, or funding accrual — and closing returns
    margin plus profit minus the taker fee and appends a trade. */
module EngineFutures {
  import opened Basics
  import opened Dict

  datatype Config = Config(
    initialEquity: real,
    leverage: real,
    feeRate: real,
    fundingRate: real,
    fundingIntervalBars: int,
    maxOpenPositions: int)

  /** The constructor defaults: 2x leverage, 0.04% taker fee, 0.01% funding
      every 32 bars (8 hours of 15-minute candles), at most 3 positions. */
  function DefaultConfig(initialEquity: real): Config
  {
    Config(initialEquity, 2.0, 0.0004, 0.0001, 32, 3)
  }

  datatype Position = Position(
    side: Side,
    entryPrice: real,
    stopPrice: real,
    qty: real,
    margin: real,
    liqPrice: real,
    barsHeld: int,
    maxHoldBars: int)

  /** A realized trade. The source also stores an entry time, always `None`. */
  datatype Trade = Trade(
    symbol: Symbol,
    side: Side,
    exitTime: Timestamp,
    entryPrice: real,
    exitPrice: real,
    qty: real,
    pnl: real,
    returnPct: real,
    reason: ExitReason)

  /** What a strategy hands the engine for a new position. */
  datatype Signal = Signal(
    side: Side,
    entryPrice: real,
    stopLoss: real,
    qty: real,
    marginRequired: real,
    liquidationPrice: real,
    maxHoldBars: int)

  datatype Engine = Engine(
    cfg: Config,
    cash: real,
    equity: real,
    positions: Dict<Position>,
    latestPrices: map<Symbol, real>,
    trades: seq<Trade>,
    equityCurve: seq<real>)

  /** A new engine: all of the initial equity is cash, nothing is held or
      traded, and its equity is already marked. */
  function Init(cfg: Config): (e: Engine)
    ensures e.cfg == cfg && |e.positions| == 0 && e.trades == [] && e.equityCurve == []
    ensures Ledger(e) == cfg.initialEquity
    ensures MarkToMarket(e) == e
  {
    Engine(cfg, cfg.initialEquity, cfg.initialEquity, [], map[], [], [])
  }

  /** `_apply_fee`: the taker fee on a notional. */
  function Fee(cfg: Config, notional: real): (f: real)
    ensures cfg.feeRate == 0.0 ==> f == 0.0
  {
    notional * cfg.feeRate
  }

  /** A fee at a rate in [0, 1] is never negative and never more than the
      notional it is charged on. */
  lemma FeeWithinNotional(cfg: Config, notional: real)
    requires 0.0 <= notional && 0.0 <= cfg.feeRate <= 1.0
    ensures 0.0 <= Fee(cfg, notional) <= notional
  {
    NonNegativeProduct(notional, cfg.feeRate);
    NonNegativeProduct(notional, 1.0 - cfg.feeRate);
    assert notional * (1.0 - cfg.feeRate) == notional - notional * cfg.feeRate;
  }

  /** Positions whose close cannot divide by a zero margin. */
  predicate MarginNonZero(p: Position)
  {
    p.margin != 0.0
  }

  // ------------------------------------------------
  // Valuation
  // ------------------------------------------------

  function MarginOf(e: Entry<Position>): real
  {
    e.value.margin
  }

  /** Cash plus every locked margin: what the account holds before unrealized
      profit. Opening leaves it unchanged; closing and funding move it by
      exactly the realized amounts. */
  function Ledger(e: Engine): real
  {
    e.cash + Sum(e.positions, MarginOf)
  }

  function Unrealized(p: Position, price: real): real
  {
    Direction(p.side) * (price - p.entryPrice) * p.qty
  }

  /** A position's contribution to equity at the latest known price of its
      symbol; a symbol with no price yet contributes nothing. */
  function ValueAt(prices: map<Symbol, real>): Entry<Position> -> real
  {
    (en: Entry<Position>) =>
      if en.key in prices then Unrealized(en.value, prices[en.key]) + en.value.margin else 0.0
  }

  /** `_mark_to_market`: recomputes equity and touches nothing else. */
  function MarkToMarket(e: Engine): (r: Engine)
    ensures r == e.(equity := r.equity)
    ensures r.equity - r.cash == Sum(e.positions, ValueAt(e.latestPrices))
  {
    e.(equity := e.cash + Sum(e.positions, ValueAt(e.latestPrices)))
  }

  /** Marking twice gives the same engine as marking once. */
  lemma MarkToMarketIdempotent(e: Engine)
    ensures MarkToMarket(MarkToMarket(e)) == MarkToMarket(e)
  {
  }

  function UnrealizedAt(prices: map<Symbol, real>): Entry<Position> -> real
  {
    (en: Entry<Position>) => if en.key in prices then Unrealized(en.value, prices[en.key]) else 0.0
  }

  function PricedMargin(prices: map<Symbol, real>): Entry<Position> -> real
  {
    (en: Entry<Position>) => if en.key in prices then en.value.margin else 0.0
  }

  /** The equity identity: with every held symbol priced, marked equity is
      cash plus all locked margin plus all unrealized profit. */
  lemma {:induction false} EquityIsLedgerPlusUnrealized(e: Engine)
    requires Keys(e.positions) <= e.latestPrices.Keys
    ensures MarkToMarket(e).equity == Ledger(e) + Sum(e.positions, UnrealizedAt(e.latestPrices))
  {
    var prices := e.latestPrices;
    SumAdd(e.positions, UnrealizedAt(prices), PricedMargin(prices), ValueAt(prices));
    PricedMarginIsMargin(e.positions, prices);
  }

  lemma {:induction false} PricedMarginIsMargin(d: Dict<Position>, prices: map<Symbol, real>)
    requires Keys(d) <= prices.Keys
    ensures Sum(d, PricedMargin(prices)) == Sum(d, MarginOf)
  {
    if |d| > 0 {
      PricedMarginIsMargin(d[1..], prices);
    }
  }

  /** Every position priced at its own entry: equity is exactly the ledger. */
  lemma {:induction false} AtEntryPricesEquityIsLedger(e: Engine)
    requires forall i :: 0 <= i < |e.positions| ==>
      e.positions[i].key in e.latestPrices && e.latestPrices[e.positions[i].key] == e.positions[i].value.entryPrice
    ensures MarkToMarket(e).equity == Ledger(e)
  {
    var prices := e.latestPrices;
    KeysPriced(e.positions, prices);
    EquityIsLedgerPlusUnrealized(e);
    SumZero(e.positions, UnrealizedAt(prices));
  }

  lemma {:induction false} KeysPriced(d: Dict<Position>, prices: map<Symbol, real>)
    requires forall i :: 0 <= i < |d| ==> d[i].key in prices
    ensures Keys(d) <= prices.Keys
  {
    if |d| > 0 {
      assert forall i :: 0 <= i < |d[1..]| ==> d[1..][i] == d[i + 1];
      KeysPriced(d[1..], prices);
    }
  }

  // ------------------------------------------------
  // Position management
  // ------------------------------------------------

  /** `open_position`. It does not look at whether `symbol` is already held:
      that guard lives in `OnCandle`. */
  function OpenPosition(e: Engine, symbol: Symbol, side: Side, entryPrice: real, stopPrice: real, qty: real,
                        marginRequired: real, liquidationPrice: real, maxHoldBars: int): (r: Engine)
    ensures |e.positions| >= e.cfg.maxOpenPositions || marginRequired > e.cash ==> r == e
    ensures !(|e.positions| >= e.cfg.maxOpenPositions || marginRequired > e.cash) ==>
      && r == e.(cash := r.cash, positions := r.positions)
      && r.cash == e.cash - marginRequired
      && Get(r.positions, symbol) == Some(Position(side, entryPrice, stopPrice, qty, marginRequired, liquidationPrice, 0, maxHoldBars))
      && Keys(r.positions) == Keys(e.positions) + {symbol}
    ensures forall k :: k != symbol ==> Get(r.positions, k) == Get(e.positions, k)
    ensures symbol !in Keys(e.positions) ==> Ledger(r) == Ledger(e)
    ensures |e.positions| <= e.cfg.maxOpenPositions ==> |r.positions| <= e.cfg.maxOpenPositions
    ensures UniqueKeys(e.positions) ==> UniqueKeys(r.positions)
  {
    if |e.positions| >= e.cfg.maxOpenPositions then e
    else if marginRequired > e.cash then e
    else
      var pos := Position(side, entryPrice, stopPrice, qty, marginRequired, liquidationPrice, 0, maxHoldBars);
      SumPut(e.positions, symbol, pos, MarginOf);
      e.(cash := e.cash - marginRequired, positions := Put(e.positions, symbol, pos))
  }

  /** Calling `open_position` on a symbol that is already held replaces its
      position without returning the old margin: the ledger loses it. */
  lemma OpenOverHeldSymbolLosesMargin(e: Engine, symbol: Symbol, side: Side, entryPrice: real, stopPrice: real,
                                      qty: real, marginRequired: real, liquidationPrice: real, maxHoldBars: int)
    requires UniqueKeys(e.positions)
    requires symbol in Keys(e.positions)
    requires |e.positions| < e.cfg.maxOpenPositions && marginRequired <= e.cash
    ensures Ledger(OpenPosition(e, symbol, side, entryPrice, stopPrice, qty, marginRequired, liquidationPrice, maxHoldBars))
            == Ledger(e) - Lookup(e.positions, symbol).margin
  {
    var pos := Position(side, entryPrice, stopPrice, qty, marginRequired, liquidationPrice, 0, maxHoldBars);
    SumPut(e.positions, symbol, pos, MarginOf);
    SumPop(e.positions, symbol, MarginOf);
  }

  /** Realized profit before fees of closing `p` at `exitPrice`. */
  function GrossPnl(p: Position, exitPrice: real): real
  {
    Direction(p.side) * (exitPrice - p.entryPrice) * p.qty
  }

  /** `close_position`: pops the position, credits margin + pnl - fee to cash
      and appends the trade. The trade's pnl is net of the fee, its return is
      the gross pnl over the margin. */
  function ClosePosition(e: Engine, symbol: Symbol, exitPrice: real, timestamp: Timestamp, reason: ExitReason): (r: Engine)
    requires symbol in Keys(e.positions)
    requires Lookup(e.positions, symbol).margin != 0.0
    ensures r == e.(cash := r.cash, positions := r.positions, trades := r.trades)
    ensures r.positions == Pop(e.positions, symbol)
    ensures |r.trades| == |e.trades| + 1 && r.trades[..|e.trades|] == e.trades
    ensures var p := Lookup(e.positions, symbol);
            var t := r.trades[|e.trades|];
            t == Trade(symbol, p.side, timestamp, p.entryPrice, exitPrice, p.qty, t.pnl, t.returnPct, reason)
    ensures r.cash == e.cash + Lookup(e.positions, symbol).margin + r.trades[|e.trades|].pnl
    ensures var p := Lookup(e.positions, symbol);
            r.trades[|e.trades|].pnl == GrossPnl(p, exitPrice) - p.qty * exitPrice * e.cfg.feeRate
    ensures var p := Lookup(e.positions, symbol);
            r.trades[|e.trades|].returnPct * p.margin == GrossPnl(p, exitPrice)
    ensures Ledger(r) == Ledger(e) + r.trades[|e.trades|].pnl
  {
    var p := Lookup(e.positions, symbol);
    var pnl := GrossPnl(p, exitPrice);
    var fee := Fee(e.cfg, p.qty * exitPrice);
    var returnPct := pnl / p.margin;
    assert returnPct * p.margin == pnl;
    SumPop(e.positions, symbol, MarginOf);
    var r := e.(cash := e.cash + p.margin + pnl - fee,
       positions := Pop(e.positions, symbol),
       trades := e.trades + [Trade(symbol, p.side, timestamp, p.entryPrice, exitPrice, p.qty, pnl - fee, returnPct, reason)]);
    r
  }

  /** Opening and closing at the entry price costs exactly the exit fee: cash
      is back where it was less `qty * entry * feeRate`, and the trade records
      zero return. */
  lemma {:induction false} RoundTripAtEntryCostsFee(e: Engine, symbol: Symbol, s: Signal, timestamp: Timestamp, reason: ExitReason)
    requires UniqueKeys(e.positions) && symbol !in Keys(e.positions)
    requires |e.positions| < e.cfg.maxOpenPositions && s.marginRequired <= e.cash && s.marginRequired != 0.0
    ensures var entered := OpenPosition(e, symbol, s.side, s.entryPrice, s.stopLoss, s.qty, s.marginRequired, s.liquidationPrice, s.maxHoldBars);
            var closed := ClosePosition(entered, symbol, s.entryPrice, timestamp, reason);
            && closed.cash == e.cash - s.qty * s.entryPrice * e.cfg.feeRate
            && closed.trades[|e.trades|].returnPct == 0.0
            && Keys(closed.positions) == Keys(e.positions)
  {
    var entered := OpenPosition(e, symbol, s.side, s.entryPrice, s.stopLoss, s.qty, s.marginRequired, s.liquidationPrice, s.maxHoldBars);
    var p := Lookup(entered.positions, symbol);
    assert p.entryPrice == s.entryPrice && p.margin == s.marginRequired;
    assert GrossPnl(p, s.entryPrice) == 0.0;
    var closed := ClosePosition(entered, symbol, s.entryPrice, timestamp, reason);
    assert closed.trades[|e.trades|].returnPct * p.margin == 0.0;
  }

  // ------------------------------------------------
  // Candle handler
  // ------------------------------------------------

  /** The branch a held position takes on a bar, after its bar count has been
      incremented. */
  datatype BarAction = Exit(price: real, reason: ExitReason) | Funding(fee: real) | Hold

  predicate LiquidationHit(p: Position, bar: Bar)
  {
    (p.side == Long && bar.low <= p.liqPrice) || (p.side == Short && bar.high >= p.liqPrice)
  }

  predicate StopHit(p: Position, bar: Bar)
  {
    (p.side == Long && bar.low <= p.stopPrice) || (p.side == Short && bar.high >= p.stopPrice)
  }

  predicate TimeUp(p: Position)
  {
    p.barsHeld >= p.maxHoldBars
  }

  /** Python's `bars_held % funding_interval_bars == 0` is divisibility, for
      either sign of the interval, and so is Dafny's Euclidean `%`. */
  predicate FundingDue(cfg: Config, p: Position)
    requires cfg.fundingIntervalBars != 0
  {
    p.barsHeld % cfg.fundingIntervalBars == 0
  }

  /** Exactly one branch, in the order liquidation > stop > time > funding.
      There is no take-profit exit. */
  function BarActionFor(cfg: Config, p: Position, bar: Bar): (a: BarAction)
    requires cfg.fundingIntervalBars != 0
    ensures a.Exit? ==> a.reason != Target
    ensures (a == Exit(p.liqPrice, Liquidation)) <==> LiquidationHit(p, bar)
    ensures a.Exit? && a.reason == Liquidation ==> a.price == p.liqPrice
    ensures (a.Exit? && a.reason == Stop) <==> !LiquidationHit(p, bar) && StopHit(p, bar)
    ensures a.Exit? && a.reason == Stop ==> a.price == p.stopPrice
    ensures (a.Exit? && a.reason == Time) <==> !LiquidationHit(p, bar) && !StopHit(p, bar) && TimeUp(p)
    ensures a.Exit? && a.reason == Time ==> a.price == bar.close
    ensures a.Funding? <==> !LiquidationHit(p, bar) && !StopHit(p, bar) && !TimeUp(p) && FundingDue(cfg, p)
    ensures a.Funding? ==> a.fee == p.qty * bar.close * cfg.fundingRate
    ensures a.Hold? <==> !LiquidationHit(p, bar) && !StopHit(p, bar) && !TimeUp(p) && !FundingDue(cfg, p)
  {
    if p.side == Long && bar.low <= p.liqPrice then Exit(p.liqPrice, Liquidation)
    else if p.side == Short && bar.high >= p.liqPrice then Exit(p.liqPrice, Liquidation)
    else if p.side == Long && bar.low <= p.stopPrice then Exit(p.stopPrice, Stop)
    else if p.side == Short && bar.high >= p.stopPrice then Exit(p.stopPrice, Stop)
    else if p.barsHeld >= p.maxHoldBars then Exit(bar.close, Time)
    else if p.barsHeld % cfg.fundingIntervalBars == 0 then Funding(p.qty * bar.close * cfg.fundingRate)
    else Hold
  }

  /** A held position as it stands once this bar has been counted. */
  function Bumped(p: Position): Position
  {
    p.(barsHeld := p.barsHeld + 1)
  }

  /** The cash a bar's action charges without closing anything. */
  function Charge(a: BarAction): real
  {
    if a.Funding? then a.fee else 0.0
  }

  /** The "manage open positions" half of `on_candle` for `symbol`. */
  function ManagePosition(e: Engine, symbol: Symbol, bar: Bar): (r: Engine)
    requires symbol in Keys(e.positions)
    requires Lookup(e.positions, symbol).margin != 0.0 && e.cfg.fundingIntervalBars != 0
    ensures r.cfg == e.cfg && r.latestPrices == e.latestPrices && r.equityCurve == e.equityCurve && r.equity == e.equity
    ensures forall k :: k != symbol ==> Get(r.positions, k) == Get(e.positions, k)
    ensures UniqueKeys(e.positions) ==> UniqueKeys(r.positions)
    ensures |r.positions| <= |e.positions|
    ensures Keys(r.positions) <= Keys(e.positions)
    ensures Every(e.positions, MarginNonZero) ==> Every(r.positions, MarginNonZero)
    ensures var p := Bumped(Lookup(e.positions, symbol));
            var a := BarActionFor(e.cfg, p, bar);
            && (a.Exit? ==>
                  && |r.trades| == |e.trades| + 1 && r.trades[..|e.trades|] == e.trades
                  && r.trades[|e.trades|].reason == a.reason
                  && r.trades[|e.trades|].exitPrice == a.price
                  && r.trades[|e.trades|].exitTime == bar.time
                  && |r.positions| == |e.positions| - 1
                  && (UniqueKeys(e.positions) ==> symbol !in Keys(r.positions))
                  && Ledger(r) == Ledger(e) + r.trades[|e.trades|].pnl)
            && (!a.Exit? ==>
                  && r.trades == e.trades
                  && Get(r.positions, symbol) == Some(p)
                  && |r.positions| == |e.positions|
                  && r.cash == e.cash - Charge(a)
                  && Ledger(r) == Ledger(e) - Charge(a))
  {
    var p0 := Lookup(e.positions, symbol);
    var p := Bumped(p0);
    var held := e.(positions := Put(e.positions, symbol, p));
    EveryPut(e.positions, MarginNonZero, symbol, p);
    SumPut(e.positions, symbol, p, MarginOf);
    SumPop(e.positions, symbol, MarginOf);
    assert Ledger(held) == Ledger(e);
    match BarActionFor(e.cfg, p, bar)
    case Exit(price, reason) =>
      EveryPop(held.positions, MarginNonZero, symbol);
      ClosePosition(held, symbol, price, bar.time, reason)
    case Funding(fee) => held.(cash := held.cash - fee)
    case Hold => held
  }

  /** `on_candle(symbol, candle, signal)`. */
  function OnCandle(e: Engine, symbol: Symbol, bar: Bar, signal: Option<Signal>): (r: Engine)
    requires symbol in Keys(e.positions) ==> Lookup(e.positions, symbol).margin != 0.0 && e.cfg.fundingIntervalBars != 0
    ensures r.cfg == e.cfg
    ensures r.latestPrices == e.latestPrices[symbol := bar.close]
    ensures r.equityCurve == e.equityCurve + [r.equity]
    ensures MarkToMarket(r) == r
    ensures |e.trades| <= |r.trades| <= |e.trades| + 1 && r.trades[..|e.trades|] == e.trades
    ensures forall k :: k != symbol ==> Get(r.positions, k) == Get(e.positions, k)
    ensures signal.None? ==> Keys(r.positions) <= Keys(e.positions)
    ensures UniqueKeys(e.positions) ==> UniqueKeys(r.positions)
    ensures |e.positions| <= e.cfg.maxOpenPositions ==> |r.positions| <= e.cfg.maxOpenPositions
    ensures Every(e.positions, MarginNonZero) && (signal.Some? ==> signal.value.marginRequired != 0.0)
            ==> Every(r.positions, MarginNonZero)
  {
    var priced := e.(latestPrices := e.latestPrices[symbol := bar.close]);
    var managed := if symbol in Keys(priced.positions) then ManagePosition(priced, symbol, bar) else priced;
    var entered :=
      if signal.Some? && symbol !in Keys(managed.positions) then
        var s := signal.value;
        var o := OpenPosition(managed, symbol, s.side, s.entryPrice, s.stopLoss, s.qty, s.marginRequired, s.liquidationPrice, s.maxHoldBars);
        var p := Position(s.side, s.entryPrice, s.stopLoss, s.qty, s.marginRequired, s.liquidationPrice, 0, s.maxHoldBars);
        EveryPut(managed.positions, MarginNonZero, symbol, p);
        o
      else managed;
    var marked := MarkToMarket(entered);
    marked.(equityCurve := marked.equityCurve + [marked.equity])
  }

  /** A held symbol's bar: one action fires; an exit appends exactly one trade
      carrying that action's reason and price, anything else keeps the position
      (one bar older) and the trade list; the ledger moves by the realized net
      pnl or the funding charge and by nothing else. */
  lemma {:induction false} OnCandleHeld(e: Engine, symbol: Symbol, bar: Bar, signal: Option<Signal>)
    requires UniqueKeys(e.positions)
    requires symbol in Keys(e.positions)
    requires Lookup(e.positions, symbol).margin != 0.0 && e.cfg.fundingIntervalBars != 0
    ensures var r := OnCandle(e, symbol, bar, signal);
            var p := Bumped(Lookup(e.positions, symbol));
            var a := BarActionFor(e.cfg, p, bar);
            && (a.Exit? ==>
                  && |r.trades| == |e.trades| + 1
                  && r.trades[|e.trades|].reason == a.reason
                  && r.trades[|e.trades|].exitPrice == a.price
                  && Ledger(r) == Ledger(e) + r.trades[|e.trades|].pnl)
            && (!a.Exit? ==>
                  && r.trades == e.trades
                  && Get(r.positions, symbol) == Some(p)
                  && r.cash == e.cash - Charge(a)
                  && Ledger(r) == Ledger(e) - Charge(a))
  {
    var priced := e.(latestPrices := e.latestPrices[symbol := bar.close]);
    var managed := ManagePosition(priced, symbol, bar);
    assert Ledger(priced) == Ledger(e);
    if signal.Some? && symbol !in Keys(managed.positions) {
      var s := signal.value;
      var o := OpenPosition(managed, symbol, s.side, s.entryPrice, s.stopLoss, s.qty, s.marginRequired, s.liquidationPrice, s.maxHoldBars);
      assert Ledger(o) == Ledger(managed);
    }
  }

  /** A flat symbol's bar opens at most the signalled position, which locks
      exactly its margin out of cash, and otherwise changes no cash. */
  lemma {:induction false} OnCandleFlat(e: Engine, symbol: Symbol, bar: Bar, signal: Option<Signal>)
    requires symbol !in Keys(e.positions)
    ensures var r := OnCandle(e, symbol, bar, signal);
            && r.trades == e.trades
            && Ledger(r) == Ledger(e)
            && (signal.None? || |e.positions| >= e.cfg.maxOpenPositions || signal.value.marginRequired > e.cash ==>
                  r.positions == e.positions && r.cash == e.cash)
            && (signal.Some? && |e.positions| < e.cfg.maxOpenPositions && signal.value.marginRequired <= e.cash ==>
                  var s := signal.value;
                  && r.cash == e.cash - s.marginRequired
                  && Get(r.positions, symbol) == Some(Position(s.side, s.entryPrice, s.stopLoss, s.qty, s.marginRequired, s.liquidationPrice, 0, s.maxHoldBars)))
  {
  }

  /** A bar whose range breaches both the liquidation price and the stop closes
      as a liquidation at the liquidation price, never as a stop. */
  lemma LiquidationBeatsStop(e: Engine, symbol: Symbol, bar: Bar, signal: Option<Signal>)
    requires UniqueKeys(e.positions)
    requires symbol in Keys(e.positions)
    requires Lookup(e.positions, symbol).margin != 0.0 && e.cfg.fundingIntervalBars != 0
    requires var p := Lookup(e.positions, symbol);
             || (p.side == Long && bar.low <= p.liqPrice && bar.low <= p.stopPrice)
             || (p.side == Short && bar.high >= p.liqPrice && bar.high >= p.stopPrice)
    ensures var r := OnCandle(e, symbol, bar, signal);
            && |r.trades| == |e.trades| + 1
            && r.trades[|e.trades|].reason == Liquidation
            && r.trades[|e.trades|].exitPrice == Lookup(e.positions, symbol).liqPrice
  {
    OnCandleHeld(e, symbol, bar, signal);
  }

  /** A symbol closed on a bar can be reopened by a signal on that same bar:
      it is then held again as a fresh position, unless cash after the close
      cannot cover the new margin. */
  lemma ReopenOnSameBar(e: Engine, symbol: Symbol, bar: Bar, s: Signal)
    requires UniqueKeys(e.positions)
    requires symbol in Keys(e.positions)
    requires Lookup(e.positions, symbol).margin != 0.0 && e.cfg.fundingIntervalBars != 0
    requires |e.positions| <= e.cfg.maxOpenPositions
    requires BarActionFor(e.cfg, Bumped(Lookup(e.positions, symbol)), bar).Exit?
    ensures var r := OnCandle(e, symbol, bar, Some(s));
            || Get(r.positions, symbol) == Some(Position(s.side, s.entryPrice, s.stopLoss, s.qty, s.marginRequired, s.liquidationPrice, 0, s.maxHoldBars))
            || r.cash < s.marginRequired
  {
  }
}

=== FILE: engine_spot.dfy ===
/** The spot backtest engine: long-only positions bought with cash, with
    slippage in basis points on every fill, a taker fee, a peak-equity drawdown
    halt that latches, and a per-bar exit order of stop > target > time. */
module EngineSpot {
  import opened Basics
  import opened Dict

  datatype Config = Config(
    initialEquity: real,
    riskPerTrade: real,
    feeRate: real,
    slippageBps: real,
    maxOpenPositions: int,
    dailyDdLimit: real)

  /** The constructor defaults: 0.4% risk per trade, 0.1% fee, 5 bps
      slippage, at most 2 positions, halt at a 2% drawdown from peak. */
  function DefaultConfig(initialEquity: real): Config
  {
    Config(initialEquity, 0.004, 0.001, 5.0, 2, 0.02)
  }

  datatype Position = Position(
    entryPrice: real,
    stopLoss: real,
    takeProfit: real,
    qty: real,
    entryTime: Timestamp,
    barsHeld: int,
    maxHoldBars: int)

  datatype Trade = Trade(
    symbol: Symbol,
    entryTime: Timestamp,
    exitTime: Timestamp,
    entryPrice: real,
    exitPrice: real,
    qty: real,
    pnl: real,
    returnPct: real,
    reason: ExitReason)

  /** A long entry proposed by a strategy; it names its own symbol. */
  datatype Signal = Signal(symbol: Symbol, entryPrice: real, stopLoss: real, takeProfit: real, maxHoldBars: int)

  datatype Engine = Engine(
    cfg: Config,
    cash: real,
    equity: real,
    positions: Dict<Position>,
    trades: seq<Trade>,
    equityCurve: seq<real>,
    latestPrices: map<Symbol, real>,
    peakEquity: real,
    tradingHalted: bool)

  /** A new engine: all of the initial equity is cash and is the peak,
      trading is allowed, nothing is held or traded, and equity is already
      marked. */
  function Init(cfg: Config): (e: Engine)
    ensures e.cfg == cfg && |e.positions| == 0 && e.trades == [] && e.equityCurve == []
    ensures e.cash == cfg.initialEquity && e.peakEquity == e.equity && !e.tradingHalted
    ensures MarkToMarket(e) == e
  {
    Engine(cfg, cfg.initialEquity, cfg.initialEquity, [], [], [], map[], cfg.initialEquity, false)
  }

  // ---------- Utilities ----------

  /** The direction of a fill; the source passes "buy" or "sell". */
  datatype Fill = Buy | Sell

  /** `_apply_slippage`: a buy fills `bps` basis points above the price, a sell
      the same amount below. */
  function ApplySlippage(cfg: Config, price: real, fill: Fill): (r: real)
    ensures fill == Buy ==> r - price == price * cfg.slippageBps / 10000.0
    ensures fill == Sell ==> price - r == price * cfg.slippageBps / 10000.0
    ensures price >= 0.0 && cfg.slippageBps >= 0.0 ==> if fill == Buy then r >= price else r <= price
  {
    var slip := price * (cfg.slippageBps / 10000.0);
    if fill == Buy then price + slip else price - slip
  }

  /** `_apply_fee`: the fee on a fill's notional. */
  function Fee(cfg: Config, notional: real): (f: real)
    ensures cfg.feeRate == 0.0 ==> f == 0.0
  {
    notional * cfg.feeRate
  }

  /** A fee at a rate in [0, 1] is never negative and never more than the
      notional it is charged on. */
  lemma FeeWithinNotional(cfg: Config, notional: real)
    requires 0.0 <= notional && 0.0 <= cfg.feeRate <= 1.0
    ensures 0.0 <= Fee(cfg, notional) <= notional
  {
    NonNegativeProduct(notional, cfg.feeRate);
    NonNegativeProduct(notional, 1.0 - cfg.feeRate);
    assert notional * (1.0 - cfg.feeRate) == notional - notional * cfg.feeRate;
  }

  /** The fall from `peak` as a fraction of it. */
  function Drawdown(peak: real, equity: real): real
    requires peak != 0.0
  {
    (peak - equity) / peak
  }

  /** `_update_drawdown`: raises the peak to the current equity if higher, and
      latches the halt once the drawdown from that peak reaches the limit. */
  function UpdateDrawdown(e: Engine): (r: Engine)
    requires e.peakEquity > 0.0
    ensures r == e.(peakEquity := r.peakEquity, tradingHalted := r.tradingHalted)
    ensures r.peakEquity >= e.peakEquity && r.peakEquity >= e.equity
    ensures r.peakEquity == e.peakEquity || r.peakEquity == e.equity
    ensures r.tradingHalted <==> e.tradingHalted || Drawdown(r.peakEquity, e.equity) >= e.cfg.dailyDdLimit
  {
    var peak := Max(e.peakEquity, e.equity);
    var dd := Drawdown(peak, e.equity);
    e.(peakEquity := peak, tradingHalted := if dd >= e.cfg.dailyDdLimit then true else e.tradingHalted)
  }

  function QtyTimesPrice(prices: map<Symbol, real>): Entry<Position> -> real
  {
    (en: Entry<Position>) => if en.key in prices then en.value.qty * prices[en.key] else 0.0
  }

  /** `_mark_to_market`: equity is cash plus the market value of every position
      whose symbol has a price; nothing else changes. */
  function MarkToMarket(e: Engine): (r: Engine)
    ensures r == e.(equity := r.equity)
    ensures r.equity - r.cash == Sum(e.positions, QtyTimesPrice(e.latestPrices))
  {
    e.(equity := e.cash + Sum(e.positions, QtyTimesPrice(e.latestPrices)))
  }

  // ---------- Trading logic ----------

  /** Why `open_position` would do nothing. */
  predicate OpenBlocked(e: Engine, s: Signal)
  {
    || e.tradingHalted
    || |e.positions| >= e.cfg.maxOpenPositions
    || s.symbol in Keys(e.positions)
    || s.entryPrice - s.stopLoss <= 0.0
  }

  /** Quantity risking `riskPerTrade` of equity between the signal's
      unslipped entry and its stop. */
  function SpotQty(e: Engine, s: Signal): real
    requires s.entryPrice - s.stopLoss > 0.0
  {
    e.equity * e.cfg.riskPerTrade / (s.entryPrice - s.stopLoss)
  }

  /** `open_position(signal, timestamp)`. */
  function OpenPosition(e: Engine, s: Signal, timestamp: Timestamp): (r: Engine)
    ensures r == e.(cash := r.cash, positions := r.positions)
    ensures OpenBlocked(e, s) ==> r == e
    ensures !OpenBlocked(e, s) ==>
      var qty := SpotQty(e, s);
      var entry := ApplySlippage(e.cfg, s.entryPrice, Buy);
      var cost := qty * entry;
      && qty * (s.entryPrice - s.stopLoss) == e.equity * e.cfg.riskPerTrade
      && (cost + Fee(e.cfg, cost) > e.cash ==> r == e)
      && (cost + Fee(e.cfg, cost) <= e.cash ==>
            && r == e.(cash := r.cash, positions := r.positions)
            && r.cash == e.cash - (cost + Fee(e.cfg, cost))
            && Get(r.positions, s.symbol) == Some(Position(entry, s.stopLoss, s.takeProfit, qty, timestamp, 0, s.maxHoldBars))
            && Keys(r.positions) == Keys(e.positions) + {s.symbol})
    ensures forall k :: k != s.symbol ==> Get(r.positions, k) == Get(e.positions, k)
    ensures Keys(e.positions) <= Keys(r.positions)
    ensures |e.positions| <= e.cfg.maxOpenPositions ==> |r.positions| <= e.cfg.maxOpenPositions
    ensures UniqueKeys(e.positions) ==> UniqueKeys(r.positions)
  {
    if e.tradingHalted then e
    else if |e.positions| >= e.cfg.maxOpenPositions then e
    else if s.symbol in Keys(e.positions) then e
    else
      var stopDistance := s.entryPrice - s.stopLoss;
      if stopDistance <= 0.0 then e
      else
        var qty := SpotQty(e, s);
        var entry := ApplySlippage(e.cfg, s.entryPrice, Buy);
        var cost := qty * entry;
        var fee := Fee(e.cfg, cost);
        if cost + fee > e.cash then e
        else
          assert !(SpotQty(e, s) * ApplySlippage(e.cfg, s.entryPrice, Buy) + Fee(e.cfg, cost) > e.cash);
          e.(cash := e.cash - (cost + fee),
             positions := Put(e.positions, s.symbol, Position(entry, s.stopLoss, s.takeProfit, qty, timestamp, 0, s.maxHoldBars)))
  }

  /** A position whose close does not divide by a zero cost basis. */
  predicate Closable(p: Position)
  {
    p.entryPrice * p.qty != 0.0
  }

  /** `close_position`: sells at the slipped price; cash receives the sale
      value less the fee, which is the cost basis plus the recorded pnl. */
  function ClosePosition(e: Engine, symbol: Symbol, price: real, timestamp: Timestamp, reason: ExitReason): (r: Engine)
    requires symbol in Keys(e.positions)
    requires Closable(Lookup(e.positions, symbol))
    ensures r == e.(cash := r.cash, positions := r.positions, trades := r.trades)
    ensures r.positions == Pop(e.positions, symbol)
    ensures |r.trades| == |e.trades| + 1 && r.trades[..|e.trades|] == e.trades
    ensures var p := Lookup(e.positions, symbol);
            var t := r.trades[|e.trades|];
            && t == Trade(symbol, p.entryTime, timestamp, p.entryPrice, ApplySlippage(e.cfg, price, Sell), p.qty, t.pnl, t.returnPct, reason)
            && t.pnl == (t.exitPrice - p.entryPrice) * p.qty - t.exitPrice * p.qty * e.cfg.feeRate
            && r.cash == e.cash + p.entryPrice * p.qty + t.pnl
            && t.returnPct * (p.entryPrice * p.qty) == t.pnl
  {
    var p := Lookup(e.positions, symbol);
    var exitPrice := ApplySlippage(e.cfg, price, Sell);
    var value := p.qty * exitPrice;
    var fee := Fee(e.cfg, value);
    var pnl := (exitPrice - p.entryPrice) * p.qty - fee;
    var returnPct := pnl / (p.entryPrice * p.qty);
    assert returnPct * (p.entryPrice * p.qty) == pnl;
    e.(cash := e.cash + value - fee,
       positions := Pop(e.positions, symbol),
       trades := e.trades + [Trade(symbol, p.entryTime, timestamp, p.entryPrice, exitPrice, p.qty, pnl, returnPct, reason)])
  }

  // ---------- Candle handler ----------

  /** Exit order for a held long: stop, then target, then time. */
  function ExitFor(p: Position, bar: Bar): (x: Option<(real, ExitReason)>)
    ensures (x == Some((p.stopLoss, Stop))) <==> bar.low <= p.stopLoss
    ensures x.Some? && x.value.1 == Stop ==> x.value.0 == p.stopLoss
    ensures (x.Some? && x.value.1 == Target) <==> bar.low > p.stopLoss && bar.high >= p.takeProfit
    ensures x.Some? && x.value.1 == Target ==> x.value.0 == p.takeProfit
    ensures (x.Some? && x.value.1 == Time) <==> bar.low > p.stopLoss && bar.high < p.takeProfit && p.barsHeld >= p.maxHoldBars
    ensures x.Some? && x.value.1 == Time ==> x.value.0 == bar.close
    ensures x.Some? ==> x.value.1 != Liquidation
    ensures x.None? <==> bar.low > p.stopLoss && bar.high < p.takeProfit && p.barsHeld < p.maxHoldBars
  {
    if bar.low <= p.stopLoss then Some((p.stopLoss, Stop))
    else if bar.high >= p.takeProfit then Some((p.takeProfit, Target))
    else if p.barsHeld >= p.maxHoldBars then Some((bar.close, Time))
    else None
  }

  function ManagePosition(e: Engine, symbol: Symbol, bar: Bar): (r: Engine)
    requires symbol in Keys(e.positions) && Closable(Lookup(e.positions, symbol))
    ensures r.cfg == e.cfg && r.latestPrices == e.latestPrices && r.equityCurve == e.equityCurve
    ensures r.equity == e.equity && r.peakEquity == e.peakEquity && r.tradingHalted == e.tradingHalted
    ensures forall k :: k != symbol ==> Get(r.positions, k) == Get(e.positions, k)
    ensures Keys(r.positions) <= Keys(e.positions) && |r.positions| <= |e.positions|
    ensures UniqueKeys(e.positions) ==> UniqueKeys(r.positions)
    ensures |e.trades| <= |r.trades| <= |e.trades| + 1 && r.trades[..|e.trades|] == e.trades
    ensures var p := Lookup(e.positions, symbol).(barsHeld := Lookup(e.positions, symbol).barsHeld + 1);
            var x := ExitFor(p, bar);
            && (x.Some? ==>
                  && |r.trades| == |e.trades| + 1 && r.trades[..|e.trades|] == e.trades
                  && r.trades[|e.trades|].reason == x.value.1
                  && r.trades[|e.trades|].exitPrice == ApplySlippage(e.cfg, x.value.0, Sell)
                  && r.cash == e.cash + p.entryPrice * p.qty + r.trades[|e.trades|].pnl
                  && |r.positions| == |e.positions| - 1
                  && (UniqueKeys(e.positions) ==> symbol !in Keys(r.positions)))
            && (x.None? ==> r.trades == e.trades && r.cash == e.cash && Get(r.positions, symbol) == Some(p))
  {
    var p0 := Lookup(e.positions, symbol);
    var p := p0.(barsHeld := p0.barsHeld + 1);
    var held := e.(positions := Put(e.positions, symbol, p));
    match ExitFor(p, bar)
    case Some((price, reason)) => ClosePosition(held, symbol, price, bar.time, reason)
    case None => held
  }

  /** The part of `on_candle` before any entry: the close is recorded as the
      symbol's latest price and a held position is managed for exits. */
  function BeforeEntry(e: Engine, symbol: Symbol, bar: Bar): (m: Engine)
    requires symbol in Keys(e.positions) ==> Closable(Lookup(e.positions, symbol))
    ensures m.cfg == e.cfg && m.equity == e.equity && m.tradingHalted == e.tradingHalted
    ensures symbol !in Keys(e.positions) ==> m == e.(latestPrices := e.latestPrices[symbol := bar.close])
    ensures symbol in Keys(e.positions) ==> m == ManagePosition(e.(latestPrices := e.latestPrices[symbol := bar.close]), symbol, bar)
  {
    var priced := e.(latestPrices := e.latestPrices[symbol := bar.close]);
    if symbol in Keys(priced.positions) then ManagePosition(priced, symbol, bar) else priced
  }

  /** The part of `on_candle` up to the entry: after the management step, a
      signal goes to `open_position`. Entering records no trade, and nothing
      enters without a signal. */
  function Entered(e: Engine, symbol: Symbol, bar: Bar, signal: Option<Signal>): (en: Engine)
    requires symbol in Keys(e.positions) ==> Closable(Lookup(e.positions, symbol))
    ensures en.trades == BeforeEntry(e, symbol, bar).trades
    ensures signal.None? ==> en == BeforeEntry(e, symbol, bar)
    ensures signal.Some? ==> en == OpenPosition(BeforeEntry(e, symbol, bar), signal.value, bar.time)
  {
    var managed := BeforeEntry(e, symbol, bar);
    if signal.Some? then OpenPosition(managed, signal.value, bar.time) else managed
  }

  /** `on_candle(symbol, candle, signal)`. */
  function OnCandle(e: Engine, symbol: Symbol, bar: Bar, signal: Option<Signal>): (r: Engine)
    requires e.peakEquity > 0.0
    requires symbol in Keys(e.positions) ==> Closable(Lookup(e.positions, symbol))
    ensures r.cfg == e.cfg
    ensures r.latestPrices == e.latestPrices[symbol := bar.close]
    ensures r.equityCurve == e.equityCurve + [r.equity]
    ensures MarkToMarket(r).equity == r.equity
    ensures r.peakEquity >= e.peakEquity && r.peakEquity >= r.equity
    ensures e.tradingHalted ==> r.tradingHalted
    ensures r.tradingHalted <==> e.tradingHalted || Drawdown(r.peakEquity, r.equity) >= e.cfg.dailyDdLimit
    ensures e.tradingHalted ==> Keys(r.positions) <= Keys(e.positions)
    ensures |e.trades| <= |r.trades| <= |e.trades| + 1 && r.trades[..|e.trades|] == e.trades
    ensures UniqueKeys(e.positions) ==> UniqueKeys(r.positions)
    ensures |e.positions| <= e.cfg.maxOpenPositions ==> |r.positions| <= e.cfg.maxOpenPositions
  {
    var marked := UpdateDrawdown(MarkToMarket(Entered(e, symbol, bar, signal)));
    marked.(equityCurve := marked.equityCurve + [marked.equity])
  }

  /** A held symbol is managed for exits on every bar, halted or not: the
      position, one bar older, exits exactly when `ExitFor` fires, recording
      one trade with that reason at the slipped exit price; otherwise it stays
      held and no trade is recorded. Entering never records a trade. */
  lemma OnCandleHeld(e: Engine, symbol: Symbol, bar: Bar, signal: Option<Signal>)
    requires e.peakEquity > 0.0
    requires symbol in Keys(e.positions) && Closable(Lookup(e.positions, symbol))
    ensures var r := OnCandle(e, symbol, bar, signal);
            var p := Lookup(e.positions, symbol).(barsHeld := Lookup(e.positions, symbol).barsHeld + 1);
            var x := ExitFor(p, bar);
            && r.trades == BeforeEntry(e, symbol, bar).trades
            && (x.Some? ==>
                  && |r.trades| == |e.trades| + 1 && r.trades[..|e.trades|] == e.trades
                  && r.trades[|e.trades|].symbol == symbol
                  && r.trades[|e.trades|].reason == x.value.1
                  && r.trades[|e.trades|].exitPrice == ApplySlippage(e.cfg, x.value.0, Sell)
                  && r.trades[|e.trades|].exitTime == bar.time)
            && (x.None? ==> r.trades == e.trades && Get(r.positions, symbol) == Some(p))
  {
    AfterEntry(e, symbol, bar, signal);
  }

  /** Marking to market and the drawdown update move only equity, the peak,
      the halt and the curve: positions, cash and trades are as the entry
      step left them. */
  lemma AfterEntry(e: Engine, symbol: Symbol, bar: Bar, signal: Option<Signal>)
    requires e.peakEquity > 0.0
    requires symbol in Keys(e.positions) ==> Closable(Lookup(e.positions, symbol))
    ensures var en := Entered(e, symbol, bar, signal);
            var r := OnCandle(e, symbol, bar, signal);
            r.positions == en.positions && r.cash == en.cash && r.trades == en.trades
  {
  }

  /** Whatever the symbol's state, a signal meets `open_position` on the
      engine the management step left, so its contract decides the entry:
      positions and cash after the bar are exactly that call's, and trades
      are those the management step left. */
  lemma OnCandleEnters(e: Engine, symbol: Symbol, bar: Bar, s: Signal)
    requires e.peakEquity > 0.0
    requires symbol in Keys(e.positions) ==> Closable(Lookup(e.positions, symbol))
    ensures var m := BeforeEntry(e, symbol, bar);
            var r := OnCandle(e, symbol, bar, Some(s));
            && r.trades == m.trades
            && r.cash == OpenPosition(m, s, bar.time).cash
            && r.positions == OpenPosition(m, s, bar.time).positions
  {
    AfterEntry(e, symbol, bar, Some(s));
  }

  /** `open_position` never reads the price cache. */
  lemma OpenIgnoresPrices(e: Engine, s: Signal, timestamp: Timestamp, prices: map<Symbol, real>)
    ensures OpenPosition(e.(latestPrices := prices), s, timestamp) == OpenPosition(e, s, timestamp).(latestPrices := prices)
  {
    var e1 := e.(latestPrices := prices);
    assert OpenBlocked(e1, s) == OpenBlocked(e, s);
    if !OpenBlocked(e, s) {
      assert SpotQty(e1, s) == SpotQty(e, s);
    }
  }

  /** For a flat symbol nothing is managed, so a signal is judged against the
      engine as it came in: no trade is recorded, and without a signal, or
      with one `open_position` refuses, positions and cash stay as they
      were... */
  lemma OnCandleFlat(e: Engine, symbol: Symbol, bar: Bar, signal: Option<Signal>)
    requires e.peakEquity > 0.0 && symbol !in Keys(e.positions)
    ensures var r := OnCandle(e, symbol, bar, signal);
            && r.trades == e.trades
            && (signal.None? ==> r.positions == e.positions && r.cash == e.cash)
            && (signal.Some? && OpenBlocked(e, signal.value) ==> r.positions == e.positions && r.cash == e.cash)
  {
    AfterEntry(e, symbol, bar, signal);
    if signal.Some? {
      OpenIgnoresPrices(e, signal.value, bar.time, e.latestPrices[symbol := bar.close]);
    }
  }

  /** ...while an unblocked signal whose cost and fee at the slipped entry fit
      in cash opens that position and pays for it. */
  lemma OnCandleFlatOpens(e: Engine, symbol: Symbol, bar: Bar, s: Signal)
    requires e.peakEquity > 0.0 && symbol !in Keys(e.positions) && !OpenBlocked(e, s)
    ensures var r := OnCandle(e, symbol, bar, Some(s));
            var qty := SpotQty(e, s);
            var entry := ApplySlippage(e.cfg, s.entryPrice, Buy);
            var cost := qty * entry;
            cost + Fee(e.cfg, cost) <= e.cash ==>
              && r.cash == e.cash - (cost + Fee(e.cfg, cost))
              && Get(r.positions, s.symbol) == Some(Position(entry, s.stopLoss, s.takeProfit, qty, bar.time, 0, s.maxHoldBars))
              && Keys(r.positions) == Keys(e.positions) + {s.symbol}
  {
    var prices := e.latestPrices[symbol := bar.close];
    var en := OpenPosition(e, s, bar.time);
    AfterEntry(e, symbol, bar, Some(s));
    OpenIgnoresPrices(e, s, bar.time, prices);
    assert BeforeEntry(e, symbol, bar) == e.(latestPrices := prices);
    var r := OnCandle(e, symbol, bar, Some(s));
    assert r.positions == en.positions && r.cash == en.cash;
  }

  /** A halt blocks only new positions: a held symbol whose bar fires any
      exit is still closed with that exit's reason and price, and with
      entries blocked it is no longer held afterwards. */
  lemma HaltedStillExits(e: Engine, symbol: Symbol, bar: Bar, signal: Option<Signal>)
    requires e.peakEquity > 0.0 && e.tradingHalted
    requires symbol in Keys(e.positions) && Closable(Lookup(e.positions, symbol))
    ensures var r := OnCandle(e, symbol, bar, signal);
            var p := Lookup(e.positions, symbol).(barsHeld := Lookup(e.positions, symbol).barsHeld + 1);
            var x := ExitFor(p, bar);
            x.Some? ==>
              && |r.trades| == |e.trades| + 1
              && r.trades[|e.trades|].reason == x.value.1
              && r.trades[|e.trades|].exitPrice == ApplySlippage(e.cfg, x.value.0, Sell)
              && (UniqueKeys(e.positions) ==> symbol !in Keys(r.positions))
  {
    OnCandleHeld(e, symbol, bar, signal);
  }

  /** Buying and selling at an unchanged price loses the slippage on both
      fills and both fees, so with non-negative slippage and fees the round
      trip never gains. */
  lemma {:induction false} RoundTripNeverGains(e: Engine, s: Signal, t0: Timestamp, t1: Timestamp, reason: ExitReason)
    requires e.cfg.slippageBps >= 0.0 && 0.0 <= e.cfg.feeRate <= 1.0 && s.entryPrice > 0.0
    requires e.equity * e.cfg.riskPerTrade > 0.0
    requires s.symbol in Keys(OpenPosition(e, s, t0).positions) - Keys(e.positions)
    ensures var entered := OpenPosition(e, s, t0);
            Closable(Lookup(entered.positions, s.symbol)) &&
            ClosePosition(entered, s.symbol, s.entryPrice, t1, reason).cash <= e.cash
  {
    var entered := OpenPosition(e, s, t0);
    EnteredAtSlippedPrice(e, s, t0);
    var p := Lookup(entered.positions, s.symbol);
    var sell := ApplySlippage(e.cfg, s.entryPrice, Sell);
    var closed := ClosePosition(entered, s.symbol, s.entryPrice, t1, reason);
    var f := e.cfg.feeRate;
    assert closed.cash == entered.cash + p.qty * sell - p.qty * sell * f;
    SaleCoversNoMoreThanPurchase(p.qty, p.entryPrice, sell, f);
  }

  /** The opening half of the round trip: a position that did open holds a
      positive quantity bought at the slipped price, and its cost and fee
      came out of cash. */
  lemma EnteredAtSlippedPrice(e: Engine, s: Signal, t0: Timestamp)
    requires e.cfg.slippageBps >= 0.0 && s.entryPrice > 0.0
    requires e.equity * e.cfg.riskPerTrade > 0.0
    requires s.symbol in Keys(OpenPosition(e, s, t0).positions) - Keys(e.positions)
    ensures var entered := OpenPosition(e, s, t0);
            var p := Lookup(entered.positions, s.symbol);
            && p.qty > 0.0 && p.entryPrice == ApplySlippage(e.cfg, s.entryPrice, Buy) && Closable(p)
            && entered.cash == e.cash - (p.qty * p.entryPrice + p.qty * p.entryPrice * e.cfg.feeRate)
  {
    var entered := OpenPosition(e, s, t0);
    assert !OpenBlocked(e, s);
    var qty := SpotQty(e, s);
    PositiveQuotient(e.equity * e.cfg.riskPerTrade, s.entryPrice - s.stopLoss);
    var buy := ApplySlippage(e.cfg, s.entryPrice, Buy);
    var p := Lookup(entered.positions, s.symbol);
    assert p.qty == qty && p.entryPrice == buy;
    PositiveProduct(buy, qty);
  }

  lemma PositiveProduct(a: real, b: real)
    requires a > 0.0 && b > 0.0
    ensures a * b > 0.0 && a * b != 0.0
  {
  }

  lemma SaleCoversNoMoreThanPurchase(q: real, buy: real, sell: real, f: real)
    requires q > 0.0 && sell <= buy && 0.0 <= f <= 1.0 && buy >= 0.0
    ensures q * sell - q * sell * f <= q * buy + q * buy * f
  {
    assert q * sell * (1.0 - f) <= q * buy * (1.0 - f) by {
      assert q * (1.0 - f) >= 0.0;
      assert q * (1.0 - f) * sell <= q * (1.0 - f) * buy;
    }
    NonNegativeProduct(q, buy);
    NonNegativeProduct(q * buy, f);
  }

}

=== FILE: gated_loop.dfy ===
/** The control shape of the futures runner's inner loop, independent of what
    is being stepped: the items are visited in their order, a gate is
    consulted on the current state before each one, the first rejection ends
    the loop (the `break`), and otherwise the item's step is applied. */
module GatedLoop {

  /** The final state and the number of items processed before the gate
      rejected (all of them when it never did). */
  function Run<S, X>(gate: S -> bool, step: (S, X) -> S, s: S, xs: seq<X>): (res: (S, nat))
    ensures res.1 <= |xs|
    ensures res.1 < |xs| ==> !gate(res.0)
    ensures !gate(s) ==> res == (s, 0)
    ensures gate(s) && |xs| > 0 ==> res.1 > 0
    decreases |xs|
  {
    if |xs| == 0 || !gate(s) then (s, 0)
    else
      var (r, n) := Run(gate, step, step(s, xs[0]), xs[1..]);
      (r, n + 1)
  }

  /** Items are processed strictly in order: a loop the gate stops inside
      `xs` never reaches the items after them... */
  lemma {:induction false} StoppedBeforeRest<S, X>(gate: S -> bool, step: (S, X) -> S, s: S, xs: seq<X>, ys: seq<X>)
    requires Run(gate, step, s, xs).1 < |xs|
    ensures Run(gate, step, s, xs + ys) == Run(gate, step, s, xs)
    decreases |xs|
  {
    if gate(s) {
      assert (xs + ys)[1..] == xs[1..] + ys;
      StoppedBeforeRest(gate, step, step(s, xs[0]), xs[1..], ys);
    }
  }

  /** ...and a loop that gets through all of `xs` continues over `ys` from the
      state `xs` left. */
  lemma {:induction false} ThroughThenRest<S, X>(gate: S -> bool, step: (S, X) -> S, s: S, xs: seq<X>, ys: seq<X>)
    requires Run(gate, step, s, xs).1 == |xs|
    ensures Run(gate, step, s, xs + ys).0 == Run(gate, step, Run(gate, step, s, xs).0, ys).0
    ensures Run(gate, step, s, xs + ys).1 == |xs| + Run(gate, step, Run(gate, step, s, xs).0, ys).1
    decreases |xs|
  {
    if |xs| == 0 {
      assert xs + ys == ys;
    } else {
      assert (xs + ys)[1..] == xs[1..] + ys;
      ThroughThenRest(gate, step, step(s, xs[0]), xs[1..], ys);
    }
  }

  /** A gate that never rejects lets every item through. */
  lemma {:induction false} OpenGateRunsAll<S, X>(gate: S -> bool, step: (S, X) -> S, s: S, xs: seq<X>)
    requires forall t :: gate(t)
    ensures Run(gate, step, s, xs).1 == |xs|
    decreases |xs|
  {
    if |xs| > 0 {
      OpenGateRunsAll(gate, step, step(s, xs[0]), xs[1..]);
    }
  }

  /** A property every step preserves holds of the final state. */
  lemma {:induction false} Preserves<S, X>(gate: S -> bool, step: (S, X) -> S, inv: S -> bool, s: S, xs: seq<X>)
    requires inv(s)
    requires forall t, x :: inv(t) ==> inv(step(t, x))
    ensures inv(Run(gate, step, s, xs).0)
    decreases |xs|
  {
    if |xs| > 0 && gate(s) {
      Preserves(gate, step, inv, step(s, xs[0]), xs[1..]);
    }
  }

  /** A log that every step (from a state satisfying `inv`, which steps keep)
      extends by exactly one entry ends up one entry longer per processed
      item, with the earlier entries kept. */
  lemma {:induction false} AppendsPerItem<S, X, T>(gate: S -> bool, step: (S, X) -> S, inv: S -> bool, log: S -> seq<T>,
                                                   s: S, xs: seq<X>)
    requires inv(s)
    requires forall t, x :: inv(t) ==>
      inv(step(t, x)) && |log(step(t, x))| == |log(t)| + 1 && log(step(t, x))[..|log(t)|] == log(t)
    ensures var (r, n) := Run(gate, step, s, xs);
      |log(r)| == |log(s)| + n && log(r)[..|log(s)|] == log(s)
    decreases |xs|
  {
    if |xs| > 0 && gate(s) {
      var next := step(s, xs[0]);
      AppendsPerItem(gate, step, inv, log, next, xs[1..]);
      var r := Run(gate, step, next, xs[1..]).0;
      assert log(r)[..|log(next)|][..|log(s)|] == log(r)[..|log(s)|];
    }
  }

  /** A log that no step shortens or rewrites keeps its entries. */
  lemma {:induction false} Grows<S, X, T>(gate: S -> bool, step: (S, X) -> S, log: S -> seq<T>, s: S, xs: seq<X>)
    requires forall t, x :: |log(t)| <= |log(step(t, x))| && log(step(t, x))[..|log(t)|] == log(t)
    ensures var r := Run(gate, step, s, xs).0;
      |log(s)| <= |log(r)| && log(r)[..|log(s)|] == log(s)
    decreases |xs|
  {
    if |xs| > 0 && gate(s) {
      var next := step(s, xs[0]);
      Grows(gate, step, log, next, xs[1..]);
      var r := Run(gate, step, next, xs[1..]).0;
      assert log(r)[..|log(next)|][..|log(s)|] == log(r)[..|log(s)|];
    }
  }

  /** A per-item view that each step changes at most at its own item is left
      as it was at every item the loop did not process. */
  lemma {:induction false} Untouched<S, X, V>(gate: S -> bool, step: (S, X) -> S, view: (S, X) -> V,
                                              s: S, xs: seq<X>, k: X)
    requires forall t, x, y :: y != x ==> view(step(t, x), y) == view(t, y)
    ensures var (r, n) := Run(gate, step, s, xs);
      k !in xs[..n] ==> view(r, k) == view(s, k)
    decreases |xs|
  {
    if |xs| > 0 && gate(s) {
      var next := step(s, xs[0]);
      var n := Run(gate, step, next, xs[1..]).1;
      if k !in xs[..n + 1] {
        assert xs[..n + 1] == [xs[0]] + xs[1..][..n];
        Untouched(gate, step, view, next, xs[1..], k);
      }
    }
  }

  /** If, besides, a step (from a state satisfying `inv`, which steps keep)
      always leaves `f(x)` at its own item `x`, every processed item ends with
      that value, even when it occurs more than once. */
  lemma {:induction false} Visited<S, X, V>(gate: S -> bool, step: (S, X) -> S, inv: S -> bool, view: (S, X) -> V,
                                            f: X -> V, s: S, xs: seq<X>, i: nat)
    requires inv(s)
    requires forall t, x :: inv(t) ==> inv(step(t, x)) && view(step(t, x), x) == f(x)
    requires forall t, x, y :: y != x ==> view(step(t, x), y) == view(t, y)
    ensures var (r, n) := Run(gate, step, s, xs);
      i < n ==> view(r, xs[i]) == f(xs[i])
    decreases |xs|
  {
    if |xs| > 0 && gate(s) {
      var next := step(s, xs[0]);
      var n := Run(gate, step, next, xs[1..]).1;
      if 0 < i < n + 1 {
        Visited(gate, step, inv, view, f, next, xs[1..], i - 1);
      } else if i == 0 {
        Untouched(gate, step, view, next, xs[1..], xs[0]);
        if xs[0] in xs[1..][..n] {
          var j :| 0 <= j < n && xs[1..][..n][j] == xs[0];
          Visited(gate, step, inv, view, f, next, xs[1..], j);
        }
      }
    }
  }
}

=== FILE: kill_switch.dfy ===
/** The global kill switch: a one-shot latch. The first trigger records its
    reason and time; later triggers change nothing, and nothing clears it. */
module KillSwitch {
  import opened Basics

  /** The source keeps an optional record `(active, reason, time)` that is only
      ever created with `active = True`; the sum type folds that into one
      constructor. The wall-clock time of the trigger is passed in. */
  datatype KillSwitchState = Inactive | Active(reason: string, time: Timestamp)

  /** A freshly constructed switch. */
  function Fresh(): (ks: KillSwitchState)
    ensures !IsActive(ks) && Reason(ks).None?
  {
    Inactive
  }

  /** `trigger(reason)` at wall-clock time `now`. */
  function Trigger(ks: KillSwitchState, reason: string, now: Timestamp): (r: KillSwitchState)
    ensures IsActive(r)
    ensures IsActive(ks) ==> r == ks
    ensures !IsActive(ks) ==> Reason(r) == Some(reason) && r.time == now
  {
    if ks.Inactive? then Active(reason, now) else ks
  }

  /** `is_active()`: a switch is active exactly when it reports a reason,
      since the source only ever records a state with `active = True`. */
  predicate IsActive(ks: KillSwitchState): (b: bool)
    ensures b <==> Reason(ks).Some?
  {
    ks.Active?
  }

  /** `reason()`: the recorded cause, absent exactly while nothing has been
      recorded. */
  function Reason(ks: KillSwitchState): (r: Option<string>)
    ensures r.None? <==> ks == Inactive
    ensures r.Some? ==> ks == Active(r.value, ks.time)
  {
    match ks
    case Inactive => None
    case Active(reason, _) => Some(reason)
  }

  /** A call of `trigger` with its reason and the time it was made. */
  datatype TriggerCall = TriggerCall(reason: string, now: Timestamp)

  /** The switch after a sequence of `trigger` calls, in order. */
  function TriggerAll(ks: KillSwitchState, calls: seq<TriggerCall>): KillSwitchState
    decreases |calls|
  {
    if |calls| == 0 then ks
    else TriggerAll(Trigger(ks, calls[0].reason, calls[0].now), calls[1..])
  }

  /** Once active, the switch stays exactly as it is whatever is triggered later. */
  lemma {:induction false} ActiveIsPermanent(ks: KillSwitchState, calls: seq<TriggerCall>)
    requires IsActive(ks)
    ensures TriggerAll(ks, calls) == ks
  {
    if |calls| > 0 {
      ActiveIsPermanent(Trigger(ks, calls[0].reason, calls[0].now), calls[1..]);
    }
  }

  /** From a fresh switch, the first call of any non-empty sequence decides the
      recorded reason and time. */
  lemma {:induction false} FirstTriggerWins(calls: seq<TriggerCall>)
    requires |calls| > 0
    ensures IsActive(TriggerAll(Fresh(), calls))
    ensures Reason(TriggerAll(Fresh(), calls)) == Some(calls[0].reason)
    ensures TriggerAll(Fresh(), calls).time == calls[0].now
  {
    var first := Trigger(Fresh(), calls[0].reason, calls[0].now);
    ActiveIsPermanent(first, calls[1..]);
  }

  /** Triggering twice is the same as triggering once. */
  lemma TriggerIdempotent(ks: KillSwitchState, a: string, t: Timestamp, b: string, u: Timestamp)
    ensures Trigger(Trigger(ks, a, t), b, u) == Trigger(ks, a, t)
  {
  }

  /** `trigger("A")` then `trigger("B")` leaves reason "A". */
  lemma ReasonAThenB(t: Timestamp, u: Timestamp)
    ensures Reason(Trigger(Trigger(Fresh(), "A", t), "B", u)) == Some("A")
  {
  }
}

=== FILE: metrics.dfy ===
/** Aggregate statistics over realized trade returns and an equity curve, in
    the two versions the repository carries: `compute_metrics` (drawdown
    measured against the initial equity, profit factor unguarded) and the
    futures runner's inline block (drawdown measured against the running peak,
    profit factor +inf when nothing lost). */
module Metrics {
  import opened Basics

  /** A profit factor as a float can hold it: a number, +inf (a positive sum
      over a zero loss) or NaN (zero over zero). */
  datatype ProfitFactor = Finite(value: real) | Infinite | Undefined

  /** The metrics dictionary. `avgWin`/`avgLoss` are `None` where pandas
      would return NaN for the mean of an empty selection. */
  datatype Report = Report(
    trades: nat,
    winRate: real,
    avgWin: Option<real>,
    avgLoss: Option<real>,
    profitFactor: ProfitFactor,
    maxDrawdown: real,
    finalEquity: real,
    returnPct: real)

  // ---------- Statistics over returns ----------


  /** How many returns are strictly positive. */
  function CountWins(rs: seq<real>): (n: nat)
    ensures n <= |rs|
  {
    if |rs| == 0 then 0 else (if rs[0] > 0.0 then 1 else 0) + CountWins(rs[1..])
  }

  /** How many returns are strictly negative; a zero return is neither. */
  function CountLosses(rs: seq<real>): (n: nat)
    ensures CountWins(rs) + n <= |rs|
  {
    if |rs| == 0 then 0 else (if rs[0] < 0.0 then 1 else 0) + CountLosses(rs[1..])
  }

  /** The sum of the strictly positive returns: zero exactly when there are none. */
  function SumWins(rs: seq<real>): (s: real)
    ensures s >= 0.0
    ensures s == 0.0 <==> CountWins(rs) == 0
  {
    if |rs| == 0 then 0.0 else (if rs[0] > 0.0 then rs[0] else 0.0) + SumWins(rs[1..])
  }

  /** The sum of the strictly negative returns: zero exactly when there are none. */
  function SumLosses(rs: seq<real>): (s: real)
    ensures s <= 0.0
    ensures s == 0.0 <==> CountLosses(rs) == 0
  {
    if |rs| == 0 then 0.0 else (if rs[0] < 0.0 then rs[0] else 0.0) + SumLosses(rs[1..])
  }

  /** `mean` of a selection with the given sum and count: absent (NaN) for an
      empty selection, otherwise a value that scales back to the sum. */
  function Mean(total: real, count: nat): (m: Option<real>)
    ensures IsMean(m, total, count)
  {
    if count == 0 then None else Some(Quotient(total, count as real))
  }

  /** The share of strictly positive returns. */
  function WinRate(rs: seq<real>): (w: real)
    requires |rs| > 0
    ensures IsShare(w, CountWins(rs), |rs|)
  {
    Quotient(CountWins(rs) as real, |rs| as real)
  }

  /** `w` is the fraction `part / whole` of a non-empty whole. */
  predicate IsShare(w: real, part: nat, whole: nat)
  {
    IsRatio(w, part as real, whole as real) && 0.0 <= w <= 1.0
  }

  /** Gross profit over gross loss, whenever some trade lost. */
  predicate IsLossRatio(pf: ProfitFactor, rs: seq<real>)
  {
    CountLosses(rs) > 0 ==> pf.Finite? && pf.value >= 0.0 && IsRatio(pf.value, SumWins(rs), -SumLosses(rs))
  }

  /** `wins / abs(losses)` for a selection with some loss. */
  function LossRatio(rs: seq<real>): (pf: ProfitFactor)
    requires CountLosses(rs) > 0
    ensures IsLossRatio(pf, rs)
  {
    Finite(Quotient(SumWins(rs), Abs(SumLosses(rs))))
  }

  /** `wins / abs(losses)` evaluated as numpy floats: a positive sum over a
      zero loss is +inf, zero over zero is NaN. */
  function UnguardedProfitFactor(rs: seq<real>): (pf: ProfitFactor)
    ensures IsLossRatio(pf, rs)
    ensures CountLosses(rs) == 0 && CountWins(rs) > 0 ==> pf == Infinite
    ensures CountLosses(rs) == 0 && CountWins(rs) == 0 ==> pf == Undefined
  {
    if SumLosses(rs) != 0.0 then LossRatio(rs) else if SumWins(rs) > 0.0 then Infinite else Undefined
  }

  // ---------- Equity-curve drawdowns ----------

  /** The running maximum of the curve up to and including index `i`. */
  function Peak(curve: seq<real>, i: nat): (p: real)
    requires i < |curve|
    ensures curve[0] <= p && curve[i] <= p
  {
    if i == 0 then curve[0] else Max(Peak(curve, i - 1), curve[i])
  }

  /** `Peak` is the maximum of the prefix, and attained there. */
  lemma {:induction false} PeakIsPrefixMax(curve: seq<real>, i: nat)
    requires i < |curve|
    ensures forall j :: 0 <= j <= i ==> curve[j] <= Peak(curve, i)
    ensures exists j :: 0 <= j <= i && curve[j] == Peak(curve, i)
  {
    if i == 0 {
      assert curve[0] == Peak(curve, 0);
    } else {
      PeakIsPrefixMax(curve, i - 1);
      if Peak(curve, i - 1) < curve[i] {
        assert curve[i] == Peak(curve, i);
      } else {
        var k :| 0 <= k <= i - 1 && curve[k] == Peak(curve, i - 1);
        assert curve[k] == Peak(curve, i);
      }
    }
  }

  /** The largest absolute gap below the running peak among the first `n`
      points (`max(maximum.accumulate(equity) - equity)`). */
  function MaxGap(curve: seq<real>, n: nat): (m: real)
    requires 0 < n <= |curve|
    ensures m >= 0.0
  {
    var gap := Peak(curve, n - 1) - curve[n - 1];
    if n == 1 then gap else Max(MaxGap(curve, n - 1), gap)
  }

  /** `MaxGap` is the maximum gap over the prefix, and attained there. */
  lemma {:induction false} MaxGapIsMax(curve: seq<real>, n: nat)
    requires 0 < n <= |curve|
    ensures forall i :: 0 <= i < n ==> Peak(curve, i) - curve[i] <= MaxGap(curve, n)
    ensures exists i :: 0 <= i < n && Peak(curve, i) - curve[i] == MaxGap(curve, n)
  {
    if n == 1 {
      assert Peak(curve, 0) - curve[0] == MaxGap(curve, 1);
    } else {
      MaxGapIsMax(curve, n - 1);
      var gap := Peak(curve, n - 1) - curve[n - 1];
      if MaxGap(curve, n - 1) < gap {
        assert MaxGap(curve, n) == gap;
      } else {
        var k :| 0 <= k < n - 1 && Peak(curve, k) - curve[k] == MaxGap(curve, n - 1);
        assert Peak(curve, k) - curve[k] == MaxGap(curve, n);
      }
    }
  }

  predicate PeaksNonZero(curve: seq<real>)
  {
    forall i :: 0 <= i < |curve| ==> Peak(curve, i) != 0.0
  }

  /** The drawdown at index `i` as a fraction of the running peak. */
  function RelativeDrawdown(curve: seq<real>, i: nat): (d: real)
    requires i < |curve| && Peak(curve, i) != 0.0
    ensures IsRatio(d, Peak(curve, i) - curve[i], Peak(curve, i))
    ensures Peak(curve, i) > 0.0 ==> 0.0 <= d && (curve[i] >= 0.0 ==> d <= 1.0)
  {
    Quotient(Peak(curve, i) - curve[i], Peak(curve, i))
  }

  /** The largest peak-relative drawdown among the first `n` points. */
  function MaxRelativeDrawdown(curve: seq<real>, n: nat): (m: real)
    requires 0 < n <= |curve| && PeaksNonZero(curve)
    ensures RelativeDrawdown(curve, n - 1) <= m
  {
    var dd := RelativeDrawdown(curve, n - 1);
    if n == 1 then dd else Max(MaxRelativeDrawdown(curve, n - 1), dd)
  }

  /** `MaxRelativeDrawdown` is the maximum over the prefix, and attained there. */
  lemma {:induction false} MaxRelativeDrawdownIsMax(curve: seq<real>, n: nat)
    requires 0 < n <= |curve| && PeaksNonZero(curve)
    ensures forall i :: 0 <= i < n ==> RelativeDrawdown(curve, i) <= MaxRelativeDrawdown(curve, n)
    ensures exists i :: 0 <= i < n && RelativeDrawdown(curve, i) == MaxRelativeDrawdown(curve, n)
  {
    if n == 1 {
      assert RelativeDrawdown(curve, 0) == MaxRelativeDrawdown(curve, 1);
    } else {
      MaxRelativeDrawdownIsMax(curve, n - 1);
      var dd := RelativeDrawdown(curve, n - 1);
      if MaxRelativeDrawdown(curve, n - 1) < dd {
        assert MaxRelativeDrawdown(curve, n) == dd;
      } else {
        var k :| 0 <= k < n - 1 && RelativeDrawdown(curve, k) == MaxRelativeDrawdown(curve, n - 1);
        assert RelativeDrawdown(curve, k) == MaxRelativeDrawdown(curve, n);
      }
    }
  }

  /** A curve that starts positive has positive peaks, so its peak-relative
      drawdown is non-negative, and at most 1 while it never goes negative. */
  lemma {:induction false} RelativeDrawdownBounds(curve: seq<real>)
    requires |curve| > 0 && curve[0] > 0.0
    ensures PeaksNonZero(curve)
    ensures 0.0 <= MaxRelativeDrawdown(curve, |curve|)
    ensures (forall i :: 0 <= i < |curve| ==> curve[i] >= 0.0) ==> MaxRelativeDrawdown(curve, |curve|) <= 1.0
  {
    assert PeaksNonZero(curve) by {
      forall i | 0 <= i < |curve|
        ensures Peak(curve, i) > 0.0
      {
        assert curve[0] <= Peak(curve, i);
      }
    }
    MaxRelativeDrawdownIsMax(curve, |curve|);
    var k :| 0 <= k < |curve| && RelativeDrawdown(curve, k) == MaxRelativeDrawdown(curve, |curve|);
    assert Peak(curve, k) > 0.0;
  }

  // ---------- The two reports ----------

  /** What both reports promise about their per-trade fields: the count, the
      share of winners, and the mean win and loss (absent with no such trade). */
  predicate DescribesTrades(rep: Report, rs: seq<real>)
  {
    && rep.trades == |rs|
    && IsShare(rep.winRate, CountWins(rs), |rs|)
    && IsMean(rep.avgWin, SumWins(rs), CountWins(rs))
    && IsMean(rep.avgLoss, SumLosses(rs), CountLosses(rs))
  }

  /** `m` is the mean of a selection with this sum and count, with its sign. */
  predicate IsMean(m: Option<real>, total: real, count: nat)
  {
    && (m.Some? <==> count > 0)
    && (m.Some? ==> IsRatio(m.value, total, count as real))
    && (m.Some? && total > 0.0 ==> m.value > 0.0)
    && (m.Some? && total < 0.0 ==> m.value < 0.0)
  }

  /** A report whose per-trade fields are computed from `rs` and whose other
      fields are as given. */
  function TradeReport(rs: seq<real>, pf: ProfitFactor, maxDrawdown: real, finalEquity: real, returnPct: real): (rep: Report)
    requires |rs| > 0
    ensures DescribesTrades(rep, rs)
    ensures rep.profitFactor == pf && rep.maxDrawdown == maxDrawdown
    ensures rep.finalEquity == finalEquity && rep.returnPct == returnPct
  {
    Report(|rs|, WinRate(rs), Mean(SumWins(rs), CountWins(rs)), Mean(SumLosses(rs), CountLosses(rs)),
           pf, maxDrawdown, finalEquity, returnPct)
  }

  /** `compute_metrics(trades, equity_curve, initial_equity)`, given the trades'
      returns. */
  function ComputeMetrics(rets: seq<real>, curve: seq<real>, initialEquity: real): (r: Option<Report>)
    requires |rets| > 0 ==> |curve| > 0 && initialEquity != 0.0
    ensures r.None? <==> |rets| == 0
    ensures r.Some? ==> DescribesTrades(r.value, rets)
    ensures r.Some? ==> IsLossRatio(r.value.profitFactor, rets)
    ensures r.Some? && CountLosses(rets) == 0 && CountWins(rets) > 0 ==> r.value.profitFactor == Infinite
    ensures r.Some? && CountLosses(rets) == 0 && CountWins(rets) == 0 ==> r.value.profitFactor == Undefined
    ensures r.Some? ==> IsRatio(r.value.maxDrawdown, MaxGap(curve, |curve|), initialEquity)
    ensures r.Some? && initialEquity > 0.0 ==> r.value.maxDrawdown >= 0.0
    ensures r.Some? ==> r.value.finalEquity == curve[|curve| - 1]
    ensures r.Some? ==> IsRatio(r.value.returnPct, r.value.finalEquity - initialEquity, initialEquity)
  {
    if |rets| == 0 then None
    else
      var pf := UnguardedProfitFactor(rets);
      var last := curve[|curve| - 1];
      var maxDrawdown := Quotient(MaxGap(curve, |curve|), initialEquity);
      var returnPct := Quotient(last - initialEquity, initialEquity);
      Some(TradeReport(rets, pf, maxDrawdown, last, returnPct))
  }

  /** The futures runner's inline metrics, given the engine's trade returns,
      equity curve and final equity. */
  function RunnerMetrics(rets: seq<real>, curve: seq<real>, finalEquity: real, initialEquity: real): (r: Option<Report>)
    requires |rets| > 0 ==> |curve| > 0 && initialEquity != 0.0 && PeaksNonZero(curve)
    ensures r.None? <==> |rets| == 0
    ensures r.Some? ==> DescribesTrades(r.value, rets)
    ensures r.Some? ==> IsLossRatio(r.value.profitFactor, rets)
    ensures r.Some? ==> (CountLosses(rets) == 0 <==> r.value.profitFactor == Infinite)
    ensures r.Some? ==> forall i :: 0 <= i < |curve| ==> RelativeDrawdown(curve, i) <= r.value.maxDrawdown
    ensures r.Some? ==> exists i :: 0 <= i < |curve| && RelativeDrawdown(curve, i) == r.value.maxDrawdown
    ensures r.Some? ==> r.value.finalEquity == finalEquity
    ensures r.Some? ==> IsRatio(r.value.returnPct, finalEquity - initialEquity, initialEquity)
  {
    if |rets| == 0 then None
    else
      var pf := if CountLosses(rets) > 0 then LossRatio(rets) else Infinite;
      MaxRelativeDrawdownIsMax(curve, |curve|);
      var returnPct := Quotient(finalEquity - initialEquity, initialEquity);
      Some(TradeReport(rets, pf, MaxRelativeDrawdown(curve, |curve|), finalEquity, returnPct))
  }

  /** The two reports agree on every per-trade statistic and on the return, and
      on the profit factor whenever some trade lost; they can differ only in
      the drawdown and in the no-loss profit factor. */
  lemma ReportsAgreeOnTradeStatistics(rets: seq<real>, curve: seq<real>, initialEquity: real)
    requires |rets| > 0 && |curve| > 0 && initialEquity != 0.0 && PeaksNonZero(curve)
    ensures var a := ComputeMetrics(rets, curve, initialEquity).value;
            var b := RunnerMetrics(rets, curve, curve[|curve| - 1], initialEquity).value;
            && a.trades == b.trades && a.winRate == b.winRate
            && a.avgWin == b.avgWin && a.avgLoss == b.avgLoss
            && a.finalEquity == b.finalEquity && a.returnPct == b.returnPct
            && (CountLosses(rets) > 0 ==> a.profitFactor == b.profitFactor)
  {
  }

  /** All-zero returns: `compute_metrics` divides zero by zero (NaN) while the
      runner reports +inf. */
  lemma ProfitFactorsDifferOnZeroReturns()
    ensures ComputeMetrics([0.0], [100.0], 100.0).value.profitFactor == Undefined
    ensures RunnerMetrics([0.0], [100.0], 100.0, 100.0).value.profitFactor == Infinite
  {
    assert CountLosses([0.0]) == 0 && CountWins([0.0]) == 0;
  }

  /** A curve falling from 100 to 50 with initial equity 200: the absolute
      measure reports 0.25, the peak-relative one 0.5. */
  lemma DrawdownsDiffer()
    ensures ComputeMetrics([0.1], [100.0, 50.0], 200.0).value.maxDrawdown == 0.25
    ensures RunnerMetrics([0.1], [100.0, 50.0], 50.0, 200.0).value.maxDrawdown == 0.5
  {
    var c := [100.0, 50.0];
    assert Peak(c, 0) == 100.0;
    assert Peak(c, 1) == 100.0;
    assert MaxGap(c, 2) == 50.0;
    assert RelativeDrawdown(c, 0) == 0.0;
    assert RelativeDrawdown(c, 1) == 0.5;
    assert MaxRelativeDrawdown(c, 2) == 0.5;
  }
}

=== FILE: risk_futures.dfy ===
/** The authoritative futures risk gate: admission checks in a fixed order,
    fixed-fractional position sizing, margin from leverage, the conservative
    isolated-margin liquidation estimate with its safety buffer, and the
    daily/weekly drawdown gate against caller-set baselines. */
module RiskFutures {
  import opened Basics

  datatype RiskConfig = RiskConfig(
    maxLeverage: real,
    riskPerTrade: real,
    maxPositions: int,
    maxAllocPerSymbol: real,
    dailyDrawdownLimit: real,
    weeklyDrawdownLimit: real,
    maintenanceMarginRate: real,
    liquidationBufferPct: real)

  /** The constructor defaults: 2x leverage, 0.15% risk per trade, 3 positions,
      30% of equity per symbol, 1% daily and 3% weekly drawdown, 0.5%
      maintenance margin, stop at least 20% away from liquidation. */
  const DefaultConfig := RiskConfig(2.0, 0.0015, 3, 0.30, 0.01, 0.03, 0.005, 0.20)

  /** The manager's only mutable state: the drawdown baselines, unset until the
      caller resets them. */
  datatype RiskManager = RiskManager(
    cfg: RiskConfig,
    startOfDayEquity: Option<real>,
    startOfWeekEquity: Option<real>)

  /** A new manager has no baselines yet, so its drawdown gate approves every
      equity until the caller resets them. */
  function NewRiskManager(cfg: RiskConfig): (rm: RiskManager)
    ensures rm.cfg == cfg
    ensures forall equity :: CheckDrawdown(rm, equity).approved
  {
    RiskManager(cfg, None, None)
  }

  /** Sizing returned with an approved trade. */
  datatype Sizing = Sizing(positionSize: real, marginRequired: real, liquidationPrice: real)

  datatype RiskDecision = RiskDecision(approved: bool, reason: string, sizing: Option<Sizing>)

  function Reject(reason: string): RiskDecision
  {
    RiskDecision(false, reason, None)
  }

  const InvalidSide := "Invalid side"
  const MaxPositionsReached := "Max open positions reached"
  const AlreadyOpen := "Position already open on symbol"
  const InvalidStopDistance := "Invalid stop distance"
  const AllocationCapExceeded := "Per-symbol allocation cap exceeded"
  const StopTooCloseToLiquidation := "Stop too close to liquidation"
  const TradeApproved := "Trade approved"
  const EquityUndefined := "Equity zero or undefined (dry-run / empty account)"
  const DailyBreached := "Daily drawdown limit breached"
  const WeeklyBreached := "Weekly drawdown limit breached"
  const DrawdownOk := "Drawdown OK"

  // ------------------------------------------------------------------
  // Drawdown tracking
  // ------------------------------------------------------------------

  /** `reset_daily(equity)`: sets the daily baseline and nothing else. */
  function ResetDaily(rm: RiskManager, equity: real): (r: RiskManager)
    ensures r.startOfDayEquity == Some(equity)
    ensures r.startOfWeekEquity == rm.startOfWeekEquity && r.cfg == rm.cfg
  {
    rm.(startOfDayEquity := Some(equity))
  }

  /** `reset_weekly(equity)`: sets the weekly baseline and nothing else. */
  function ResetWeekly(rm: RiskManager, equity: real): (r: RiskManager)
    ensures r.startOfWeekEquity == Some(equity)
    ensures r.startOfDayEquity == rm.startOfDayEquity && r.cfg == rm.cfg
  {
    rm.(startOfWeekEquity := Some(equity))
  }

  /** A baseline counts only when it is set and positive; it is breached when
      the fractional decline from it reaches the limit. */
  predicate Breached(baseline: Option<real>, equity: real, limit: real)
  {
    baseline.Some? && baseline.value > 0.0 && (baseline.value - equity) / baseline.value >= limit
  }

  /** `check_drawdown(equity)`; `None` is Python's `equity is None`. */
  function CheckDrawdown(rm: RiskManager, equity: Option<real>): (d: RiskDecision)
    ensures d.sizing.None?
    ensures (equity.None? || equity.value <= 0.0) ==> d.approved && d.reason == EquityUndefined
    ensures equity.Some? && equity.value > 0.0 ==>
      if Breached(rm.startOfDayEquity, equity.value, rm.cfg.dailyDrawdownLimit) then
        d == Reject(DailyBreached)
      else if Breached(rm.startOfWeekEquity, equity.value, rm.cfg.weeklyDrawdownLimit) then
        d == Reject(WeeklyBreached)
      else
        d.approved && d.reason == DrawdownOk
  {
    if equity.None? || equity.value <= 0.0 then
      RiskDecision(true, EquityUndefined, None)
    else
      var e := equity.value;
      if rm.startOfDayEquity.Some? && rm.startOfDayEquity.value > 0.0
         && (rm.startOfDayEquity.value - e) / rm.startOfDayEquity.value >= rm.cfg.dailyDrawdownLimit then
        Reject(DailyBreached)
      else if rm.startOfWeekEquity.Some? && rm.startOfWeekEquity.value > 0.0
         && (rm.startOfWeekEquity.value - e) / rm.startOfWeekEquity.value >= rm.cfg.weeklyDrawdownLimit then
        Reject(WeeklyBreached)
      else
        RiskDecision(true, DrawdownOk, None)
  }

  /** The drawdown fraction falls as equity rises, so a baseline breached at
      some equity is breached at every lower positive equity. */
  lemma BreachedMonotone(baseline: Option<real>, lo: real, hi: real, limit: real)
    requires lo <= hi
    requires Breached(baseline, hi, limit)
    ensures Breached(baseline, lo, limit)
  {
    var b := baseline.value;
    assert (b - lo) / b >= (b - hi) / b by {
      assert (b - lo) / b - (b - hi) / b == (hi - lo) / b;
    }
  }

  /** The gate is monotone: approving some positive equity approves every
      higher one, and rejecting some equity rejects every lower positive one. */
  lemma {:induction false} DrawdownGateMonotone(rm: RiskManager, lo: real, hi: real)
    requires 0.0 < lo <= hi
    ensures CheckDrawdown(rm, Some(lo)).approved ==> CheckDrawdown(rm, Some(hi)).approved
  {
    if Breached(rm.startOfDayEquity, hi, rm.cfg.dailyDrawdownLimit) {
      BreachedMonotone(rm.startOfDayEquity, lo, hi, rm.cfg.dailyDrawdownLimit);
    } else if Breached(rm.startOfWeekEquity, hi, rm.cfg.weeklyDrawdownLimit) {
      BreachedMonotone(rm.startOfWeekEquity, lo, hi, rm.cfg.weeklyDrawdownLimit);
      if Breached(rm.startOfDayEquity, lo, rm.cfg.dailyDrawdownLimit) {
      }
    }
  }

  /** With no usable baseline the gate approves every equity. */
  lemma NoBaselineAlwaysApproves(rm: RiskManager, equity: Option<real>)
    requires rm.startOfDayEquity.None? || rm.startOfDayEquity.value <= 0.0
    requires rm.startOfWeekEquity.None? || rm.startOfWeekEquity.value <= 0.0
    ensures CheckDrawdown(rm, equity).approved
  {
  }

  /** Right after both baselines are reset to the current positive equity, the
      gate approves it whenever both limits are positive. */
  lemma ResetThenApproves(rm: RiskManager, equity: real)
    requires equity > 0.0
    requires rm.cfg.dailyDrawdownLimit > 0.0 && rm.cfg.weeklyDrawdownLimit > 0.0
    ensures CheckDrawdown(ResetWeekly(ResetDaily(rm, equity), equity), Some(equity)) == RiskDecision(true, DrawdownOk, None)
  {
  }

  /** A 1.01% decline from a 10000 day baseline breaches the 1% daily limit. */
  lemma DailyBreachExample()
    ensures CheckDrawdown(ResetDaily(NewRiskManager(DefaultConfig), 10000.0), Some(9899.0)) == Reject(DailyBreached)
  {
  }

  // ------------------------------------------------------------------
  // Liquidation math
  // ------------------------------------------------------------------

  /** `_calc_liquidation_price`: the deliberately conservative isolated-margin
      estimate; every side other than long gets the short formula. */
  function LiquidationPrice(side: Side, entryPrice: real, leverage: real, maintenanceMarginRate: real): (liq: real)
    requires leverage != 0.0
    // The estimate lies the margin fraction 1/L, less the maintenance rate,
    // of the entry price away from the entry: below it for a long, above it
    // otherwise.
    ensures side == Long ==> entryPrice - liq == entryPrice * (1.0 / leverage - maintenanceMarginRate)
    ensures side != Long ==> liq - entryPrice == entryPrice * (1.0 / leverage - maintenanceMarginRate)
  {
    if side == Long then entryPrice * (1.0 - 1.0 / leverage + maintenanceMarginRate)
    else entryPrice * (1.0 + 1.0 / leverage - maintenanceMarginRate)
  }

  /** The long and short estimates sit symmetrically around the entry price,
      and when the margin fraction 1/L exceeds the maintenance rate the long
      one lies below a positive entry and the short one above it. */
  lemma LiquidationBracketsEntry(entryPrice: real, leverage: real, m: real)
    requires leverage != 0.0
    ensures LiquidationPrice(Long, entryPrice, leverage, m) + LiquidationPrice(Short, entryPrice, leverage, m) == 2.0 * entryPrice
    ensures entryPrice > 0.0 && 1.0 / leverage > m ==>
      LiquidationPrice(Long, entryPrice, leverage, m) < entryPrice < LiquidationPrice(Short, entryPrice, leverage, m)
  {
    if entryPrice > 0.0 && 1.0 / leverage > m {
      assert entryPrice * (1.0 / leverage - m) > 0.0;
    }
  }

  /** Entry 100 at 2x leverage and 0.5% maintenance: 50.5 long, 149.5 short. */
  lemma LiquidationExample()
    ensures LiquidationPrice(Long, 100.0, 2.0, 0.005) == 50.5
    ensures LiquidationPrice(Short, 100.0, 2.0, 0.005) == 149.5
  {
  }

  // ------------------------------------------------------------------
  // Core risk approval
  // ------------------------------------------------------------------

  /** The liquidation-safety condition: the estimate must clear the stop by the
      buffer on the losing side of the trade. */
  predicate LiquidationSafe(side: Side, liq: real, stop: real, buffer: real)
  {
    if side == Long then liq < stop * (1.0 + buffer) else liq > stop * (1.0 - buffer)
  }

  /** Fixed-fractional sizing: the size whose stop-out loses `riskPerTrade`
      of equity. */
  function PositionSize(cfg: RiskConfig, equity: real, entryPrice: real, stopPrice: real): real
    requires entryPrice != stopPrice
  {
    equity * cfg.riskPerTrade / Abs(entryPrice - stopPrice)
  }

  /** Margin locked for a position: its notional divided by the leverage. */
  function MarginFor(cfg: RiskConfig, size: real, entryPrice: real): real
    requires cfg.maxLeverage != 0.0
  {
    size * entryPrice / cfg.maxLeverage
  }

  /** The buffer test as the constructor's comment describes it ("stop must
      be 20% away from liq"): the liquidation estimate lies at least `buffer`
      of the stop price beyond the stop, on the far side from the entry. */
  predicate ClearsLiquidation(side: Side, liq: real, stop: real, buffer: real)
  {
    if side == Long then liq <= stop * (1.0 - buffer) else liq >= stop * (1.0 + buffer)
  }

  /** Which liquidation-buffer test the approval applies. */
  datatype BufferRule = AsWritten | AsDescribed

  predicate BufferCleared(rule: BufferRule, side: Side, liq: real, stop: real, buffer: real)
  {
    match rule
    case AsWritten => LiquidationSafe(side, liq, stop, buffer)
    case AsDescribed => ClearsLiquidation(side, liq, stop, buffer)
  }

  /** The approval checks in the source's order, with the given buffer test. */
  function Decide(rule: BufferRule, cfg: RiskConfig, equity: real, symbol: Symbol, side: Side,
                  entryPrice: real, stopPrice: real, openSymbols: set<Symbol>): RiskDecision
    requires cfg.maxLeverage != 0.0
  {
    if side.Other? then Reject(InvalidSide)
    else if |openSymbols| >= cfg.maxPositions then Reject(MaxPositionsReached)
    else if symbol in openSymbols then Reject(AlreadyOpen)
    else if Abs(entryPrice - stopPrice) <= 0.0 then Reject(InvalidStopDistance)
    else
      var positionSize := PositionSize(cfg, equity, entryPrice, stopPrice);
      var marginRequired := MarginFor(cfg, positionSize, entryPrice);
      if marginRequired > equity * cfg.maxAllocPerSymbol then Reject(AllocationCapExceeded)
      else
        var liq := LiquidationPrice(side, entryPrice, cfg.maxLeverage, cfg.maintenanceMarginRate);
        if !BufferCleared(rule, side, liq, stopPrice, cfg.liquidationBufferPct) then Reject(StopTooCloseToLiquidation)
        else RiskDecision(true, TradeApproved, Some(Sizing(positionSize, marginRequired, liq)))
  }

  /** `approve_trade`. `openSymbols` are the keys of the caller's open-position
      table; only its size and membership are read. The ATR is accepted and
      ignored, as in the source. */
  function ApproveTrade(cfg: RiskConfig, equity: real, symbol: Symbol, side: Side,
                        entryPrice: real, stopPrice: real, atr: real, openSymbols: set<Symbol>): (d: RiskDecision)
    requires cfg.maxLeverage != 0.0
    // The rejections, in order; the first failing check decides the reason.
    ensures side.Other? ==> d == Reject(InvalidSide)
    ensures !side.Other? && |openSymbols| >= cfg.maxPositions ==> d == Reject(MaxPositionsReached)
    ensures !side.Other? && |openSymbols| < cfg.maxPositions && symbol in openSymbols ==> d == Reject(AlreadyOpen)
    ensures !side.Other? && |openSymbols| < cfg.maxPositions && symbol !in openSymbols && entryPrice == stopPrice ==>
      d == Reject(InvalidStopDistance)
    ensures !side.Other? && |openSymbols| < cfg.maxPositions && symbol !in openSymbols && entryPrice != stopPrice ==>
      var margin := MarginFor(cfg, PositionSize(cfg, equity, entryPrice, stopPrice), entryPrice);
      var liq := LiquidationPrice(side, entryPrice, cfg.maxLeverage, cfg.maintenanceMarginRate);
      if margin > equity * cfg.maxAllocPerSymbol then d == Reject(AllocationCapExceeded)
      else if !LiquidationSafe(side, liq, stopPrice, cfg.liquidationBufferPct) then d == Reject(StopTooCloseToLiquidation)
      else d.approved
    ensures !d.approved ==> d.sizing.None?
    // What every approval guarantees.
    ensures d.approved <==> d.reason == TradeApproved
    ensures d.approved ==>
      && d.sizing.Some?
      && d.sizing.value.positionSize * Abs(entryPrice - stopPrice) == equity * cfg.riskPerTrade
      && d.sizing.value.marginRequired * cfg.maxLeverage == d.sizing.value.positionSize * entryPrice
      && d.sizing.value.marginRequired <= equity * cfg.maxAllocPerSymbol
      && d.sizing.value.liquidationPrice == LiquidationPrice(side, entryPrice, cfg.maxLeverage, cfg.maintenanceMarginRate)
      && LiquidationSafe(side, d.sizing.value.liquidationPrice, stopPrice, cfg.liquidationBufferPct)
  {
    Decide(AsWritten, cfg, equity, symbol, side, entryPrice, stopPrice, openSymbols)
  }

  /** The buffer test as written lets through a long whose stop sits under 9%
      above the liquidation estimate: entry 100, stop 55, liquidation 50.5. */
  lemma LooseBufferApproves()
    ensures var d := ApproveTrade(DefaultConfig, 10000.0, "BTC/USDT", Long, 100.0, 55.0, 1.0, {});
            && d.approved
            && d.sizing.value.liquidationPrice == 50.5
            && !ClearsLiquidation(Long, 50.5, 55.0, DefaultConfig.liquidationBufferPct)
  {
    assert LiquidationPrice(Long, 100.0, 2.0, 0.005) == 50.5;
  }

  /** `approve_trade` with the buffer test the constructor's comment
      describes: the checks run as in `ApproveTrade`, every approval sizes the
      trade as `ApproveTrade` does, and a trade is approved exactly when it
      passes the earlier checks and clears the liquidation estimate by the
      buffer. */
  function ApproveTradeCorrected(cfg: RiskConfig, equity: real, symbol: Symbol, side: Side,
                                 entryPrice: real, stopPrice: real, atr: real, openSymbols: set<Symbol>): (d: RiskDecision)
    requires cfg.maxLeverage != 0.0
    // The same rejections in the same order, the buffer test being the
    // described one; a trade clearing it is approved.
    ensures side.Other? ==> d == Reject(InvalidSide)
    ensures !side.Other? && |openSymbols| >= cfg.maxPositions ==> d == Reject(MaxPositionsReached)
    ensures !side.Other? && |openSymbols| < cfg.maxPositions && symbol in openSymbols ==> d == Reject(AlreadyOpen)
    ensures !side.Other? && |openSymbols| < cfg.maxPositions && symbol !in openSymbols && entryPrice == stopPrice ==>
      d == Reject(InvalidStopDistance)
    ensures !side.Other? && |openSymbols| < cfg.maxPositions && symbol !in openSymbols && entryPrice != stopPrice ==>
      var margin := MarginFor(cfg, PositionSize(cfg, equity, entryPrice, stopPrice), entryPrice);
      var liq := LiquidationPrice(side, entryPrice, cfg.maxLeverage, cfg.maintenanceMarginRate);
      if margin > equity * cfg.maxAllocPerSymbol then d == Reject(AllocationCapExceeded)
      else if !ClearsLiquidation(side, liq, stopPrice, cfg.liquidationBufferPct) then d == Reject(StopTooCloseToLiquidation)
      else d.approved
    ensures !d.approved ==> d.sizing.None?
    ensures d.approved <==> d.reason == TradeApproved
    ensures d.approved ==>
      && !side.Other? && |openSymbols| < cfg.maxPositions && symbol !in openSymbols
      && d.sizing.Some?
      && d.sizing.value.positionSize * Abs(entryPrice - stopPrice) == equity * cfg.riskPerTrade
      && d.sizing.value.marginRequired * cfg.maxLeverage == d.sizing.value.positionSize * entryPrice
      && d.sizing.value.marginRequired <= equity * cfg.maxAllocPerSymbol
      && d.sizing.value.liquidationPrice == LiquidationPrice(side, entryPrice, cfg.maxLeverage, cfg.maintenanceMarginRate)
      && ClearsLiquidation(side, d.sizing.value.liquidationPrice, stopPrice, cfg.liquidationBufferPct)
  {
    Decide(AsDescribed, cfg, equity, symbol, side, entryPrice, stopPrice, openSymbols)
  }

  /** The two versions differ only in the buffer test: a trade either one
      rejects for an earlier reason, the other rejects for the same reason. */
  lemma CorrectionOnlyTouchesBuffer(cfg: RiskConfig, equity: real, symbol: Symbol, side: Side,
                                    entryPrice: real, stopPrice: real, atr: real, openSymbols: set<Symbol>)
    requires cfg.maxLeverage != 0.0
    ensures var w := ApproveTrade(cfg, equity, symbol, side, entryPrice, stopPrice, atr, openSymbols);
            var c := ApproveTradeCorrected(cfg, equity, symbol, side, entryPrice, stopPrice, atr, openSymbols);
            && (!w.approved && w.reason != StopTooCloseToLiquidation ==> c == w)
            && (!c.approved && c.reason != StopTooCloseToLiquidation ==> w == c)
  {
  }

  /** The corrected test refuses the trade `LooseBufferApproves` lets through. */
  lemma CorrectedRejectsCloseStop()
    ensures ApproveTradeCorrected(DefaultConfig, 10000.0, "BTC/USDT", Long, 100.0, 55.0, 1.0, {}) == Reject(StopTooCloseToLiquidation)
  {
    assert LiquidationPrice(Long, 100.0, 2.0, 0.005) == 50.5;
  }

  /** The corrected test still approves a trade that clears the buffer: a
      long at 100 with its stop at 98 sits far above the 50.5 estimate. */
  lemma CorrectedApprovesClearStop()
    ensures var d := ApproveTradeCorrected(DefaultConfig, 10000.0, "BTC/USDT", Long, 100.0, 98.0, 1.0, {});
            d.approved && d.sizing.value.positionSize == 7.5 && d.sizing.value.liquidationPrice == 50.5
  {
    assert LiquidationPrice(Long, 100.0, 2.0, 0.005) == 50.5;
  }

  /** Fixed-fractional sizing: with positive equity and risk the approved size
      is positive, and a stop hit on the losing side costs exactly the risk
      amount before fees. */
  lemma {:induction false} StopLossCostsRiskAmount(cfg: RiskConfig, equity: real, symbol: Symbol, side: Side,
                                                  entryPrice: real, stopPrice: real, atr: real, openSymbols: set<Symbol>)
    requires cfg.maxLeverage != 0.0
    requires ApproveTrade(cfg, equity, symbol, side, entryPrice, stopPrice, atr, openSymbols).approved
    requires side == Long ==> stopPrice < entryPrice
    requires side == Short ==> stopPrice > entryPrice
    ensures var size := ApproveTrade(cfg, equity, symbol, side, entryPrice, stopPrice, atr, openSymbols).sizing.value.positionSize;
            && (equity > 0.0 && cfg.riskPerTrade > 0.0 ==> size > 0.0)
            && Direction(side) * (stopPrice - entryPrice) * size == -(equity * cfg.riskPerTrade)
  {
    var d := ApproveTrade(cfg, equity, symbol, side, entryPrice, stopPrice, atr, openSymbols);
    var size := d.sizing.value.positionSize;
    assert Direction(side) * (stopPrice - entryPrice) == -Abs(entryPrice - stopPrice);
    if equity > 0.0 && cfg.riskPerTrade > 0.0 {
      assert size * Abs(entryPrice - stopPrice) > 0.0;
    }
  }

  /** Equity 10000 risking 0.15% with entry 100 and stop 98 sizes 7.5 units. */
  lemma SizingExample()
    ensures var d := ApproveTrade(DefaultConfig, 10000.0, "BTC/USDT", Long, 100.0, 98.0, 1.0, {});
            d.approved && d.sizing.value.positionSize == 7.5
  {
  }
}

=== FILE: runner_futures.dfy ===
/** The futures backtest runner: for each aligned timestamp it visits the
    symbols in their fixed order, consults the risk manager's drawdown gate on
    the engine's current equity before each one, stops the timestamp at the
    first rejection, and otherwise asks the strategy for a signal and feeds the
    bar and the signal to the engine. After the run it summarizes the trades. */
module FuturesRunner {
  import opened Basics
  import opened Dict
  import Engine = EngineFutures
  import Risk = RiskFutures
  import opened Metrics
  import GatedLoop

  /** What the strategy sees when asked for a signal: the symbol, the bar's
      timestamp (standing for the candle history up to it), whether the
      symbol is held, the current equity and the held symbols. */
  datatype SignalContext = SignalContext(
    symbol: Symbol,
    time: Timestamp,
    positionOpen: bool,
    equity: real,
    openSymbols: set<Symbol>)

  /** The strategy is an arbitrary function of its context. */
  type Strategy = SignalContext -> Option<Engine.Signal>

  /** The aligned candle table: the bar of each symbol at each timestamp. */
  type Candles = (Symbol, Timestamp) -> Bar

  /** Every signal the strategy can produce locks a non-zero margin, so the
      return on a later close is defined. */
  ghost predicate SaneStrategy(strategy: Strategy)
  {
    forall c :: strategy(c).Some? ==> strategy(c).value.marginRequired != 0.0
  }

  /** The engine can take any bar: funding has a period and every held
      position has non-zero margin. */
  predicate Ready(e: Engine.Engine)
  {
    e.cfg.fundingIntervalBars != 0 && Every(e.positions, Engine.MarginNonZero)
  }

  /** The strategy's view before the bar: `position_open` says whether the
      symbol is held, and equity and the held symbols are the engine's. */
  function ContextFor(e: Engine.Engine, symbol: Symbol, time: Timestamp): (c: SignalContext)
    ensures c.positionOpen <==> symbol in Keys(e.positions)
    ensures c.symbol == symbol && c.time == time
    ensures c.equity == e.equity && c.openSymbols == Keys(e.positions)
  {
    SignalContext(symbol, time, symbol in Keys(e.positions), e.equity, Keys(e.positions))
  }

  /** The gate the runner consults before each symbol. */
  predicate GateOpen(rm: Risk.RiskManager, e: Engine.Engine)
  {
    Risk.CheckDrawdown(rm, Some(e.equity)).approved
  }

  /** A symbol's latest price, if it has one. */
  function PriceOf(e: Engine.Engine, k: Symbol): Option<real>
  {
    if k in e.latestPrices then Some(e.latestPrices[k]) else None
  }

  /** One symbol's step: a signal computed on the pre-bar engine, then
      `on_candle`. An engine that is not `Ready` would make `on_candle` divide
      by zero; the runner never reaches one, and the step leaves it as it is. */
  /** The bar of `symbol` at `time`, stamped with that index timestamp, as
      the source's `candle.name` is. */
  function BarAt(candles: Candles, symbol: Symbol, time: Timestamp): (b: Bar)
    ensures b.time == time
    ensures b.high == candles(symbol, time).high && b.low == candles(symbol, time).low
    ensures b.close == candles(symbol, time).close
  {
    candles(symbol, time).(time := time)
  }

  function Step(e: Engine.Engine, symbol: Symbol, time: Timestamp, candles: Candles, strategy: Strategy): (r: Engine.Engine)
    ensures r.cfg == e.cfg
    ensures Ready(e) ==> PriceOf(r, symbol) == Some(candles(symbol, time).close)
    ensures Ready(e) ==> r.equityCurve == e.equityCurve + [r.equity]
    ensures Ready(e) && SaneStrategy(strategy) ==> Ready(r)
    ensures forall k :: k != symbol ==> PriceOf(r, k) == PriceOf(e, k)
    ensures forall k :: k != symbol ==> Get(r.positions, k) == Get(e.positions, k)
    ensures |e.trades| <= |r.trades| && r.trades[..|e.trades|] == e.trades
    ensures UniqueKeys(e.positions) ==> UniqueKeys(r.positions)
    ensures |e.positions| <= e.cfg.maxOpenPositions ==> |r.positions| <= e.cfg.maxOpenPositions
  {
    if Ready(e) then
      assert symbol in Keys(e.positions) ==> Lookup(e.positions, symbol).margin != 0.0 by {
        if symbol in Keys(e.positions) {
          EveryLookup(e.positions, Engine.MarginNonZero, symbol);
        }
      }
      Engine.OnCandle(e, symbol, BarAt(candles, symbol, time), strategy(ContextFor(e, symbol, time)))
    else e
  }

  /** A step from a ready engine asks the strategy about the engine as it is
      before the bar, so `position_open` reports whether the symbol is held,
      and feeds that very signal with the symbol's bar to `on_candle`. */
  lemma StepFeedsSignal(e: Engine.Engine, symbol: Symbol, time: Timestamp, candles: Candles, strategy: Strategy)
    requires Ready(e)
    ensures symbol in Keys(e.positions) ==> Lookup(e.positions, symbol).margin != 0.0
    ensures Step(e, symbol, time, candles, strategy)
         == Engine.OnCandle(e, symbol, BarAt(candles, symbol, time), strategy(ContextFor(e, symbol, time)))
  {
    if symbol in Keys(e.positions) {
      EveryLookup(e.positions, Engine.MarginNonZero, symbol);
    }
  }

  /** A flat symbol whose strategy, told the position is not open, signals an
      entry that fits under the position cap and in cash ends the step held
      with exactly that position, and with its margin out of cash. */
  lemma StepOpensSignalled(e: Engine.Engine, symbol: Symbol, time: Timestamp, candles: Candles, strategy: Strategy)
    requires Ready(e) && symbol !in Keys(e.positions) && |e.positions| < e.cfg.maxOpenPositions
    requires strategy(ContextFor(e, symbol, time)).Some?
    requires strategy(ContextFor(e, symbol, time)).value.marginRequired <= e.cash
    ensures var s := strategy(ContextFor(e, symbol, time)).value;
            var r := Step(e, symbol, time, candles, strategy);
            && !ContextFor(e, symbol, time).positionOpen
            && Get(r.positions, symbol) == Some(Engine.Position(s.side, s.entryPrice, s.stopLoss, s.qty, s.marginRequired, s.liquidationPrice, 0, s.maxHoldBars))
            && r.cash == e.cash - s.marginRequired
  {
    StepFeedsSignal(e, symbol, time, candles, strategy);
    Engine.OnCandleFlat(e, symbol, BarAt(candles, symbol, time), strategy(ContextFor(e, symbol, time)));
  }

  // The pieces the inner loop is built from, as values.

  function Gate(rm: Risk.RiskManager): Engine.Engine -> bool
  {
    t => GateOpen(rm, t)
  }

  function Stepper(time: Timestamp, candles: Candles, strategy: Strategy): (Engine.Engine, Symbol) -> Engine.Engine
  {
    (t, x) => Step(t, x, time, candles, strategy)
  }

  /** What every step keeps relative to the engine `e0` the loop started from. */
  function Keeps(e0: Engine.Engine): Engine.Engine -> bool
  {
    t => && Ready(t) && t.cfg == e0.cfg
         && (UniqueKeys(e0.positions) ==> UniqueKeys(t.positions))
         && (|e0.positions| <= e0.cfg.maxOpenPositions ==> |t.positions| <= e0.cfg.maxOpenPositions)
  }

  function Curve(): Engine.Engine -> seq<real>
  {
    (t: Engine.Engine) => t.equityCurve
  }

  function TradeLog(): Engine.Engine -> seq<Engine.Trade>
  {
    (t: Engine.Engine) => t.trades
  }

  function PriceView(): (Engine.Engine, Symbol) -> Option<real>
  {
    (t, k) => PriceOf(t, k)
  }

  function PositionView(): (Engine.Engine, Symbol) -> Option<Engine.Position>
  {
    (t: Engine.Engine, k: Symbol) => Get(t.positions, k)
  }

  function CloseAt(candles: Candles, time: Timestamp): Symbol -> Option<real>
  {
    x => Some(candles(x, time).close)
  }

  /** Each step from an engine `Keeps(e0)` accepts yields another, and
      appends exactly one equity point. */
  lemma StepKeeps(e0: Engine.Engine, time: Timestamp, candles: Candles, strategy: Strategy)
    requires SaneStrategy(strategy)
    ensures forall t, x :: Keeps(e0)(t) ==>
      && Keeps(e0)(Stepper(time, candles, strategy)(t, x))
      && |Curve()(Stepper(time, candles, strategy)(t, x))| == |Curve()(t)| + 1
      && Curve()(Stepper(time, candles, strategy)(t, x))[..|Curve()(t)|] == Curve()(t)
  {
    var step := Stepper(time, candles, strategy);
    forall t, x | Keeps(e0)(t)
      ensures Keeps(e0)(step(t, x))
      ensures |Curve()(step(t, x))| == |Curve()(t)| + 1 && Curve()(step(t, x))[..|Curve()(t)|] == Curve()(t)
    {
      assert step(t, x) == Step(t, x, time, candles, strategy);
    }
  }

  /** With no usable baseline the gate lets every engine through. */
  lemma NoBaselineGateOpen(rm: Risk.RiskManager)
    requires rm.startOfDayEquity.None? && rm.startOfWeekEquity.None?
    ensures forall t :: Gate(rm)(t)
  {
    forall t ensures Gate(rm)(t) {
      Risk.NoBaselineAlwaysApproves(rm, Some(t.equity));
    }
  }

  /** The inner loop over the symbols at one timestamp, in their order, with
      the drawdown gate consulted on the current equity before each. Returns
      the engine and how many symbols were processed before the gate rejected
      (all of them when it never did); each processed symbol appends one
      equity point. */
  function ProcessSymbols(rm: Risk.RiskManager, e: Engine.Engine, symbols: seq<Symbol>, time: Timestamp,
                          candles: Candles, strategy: Strategy): (res: (Engine.Engine, nat))
    requires Ready(e) && SaneStrategy(strategy)
    ensures res.1 <= |symbols|
    ensures Ready(res.0) && res.0.cfg == e.cfg
    ensures |res.0.equityCurve| == |e.equityCurve| + res.1 && res.0.equityCurve[..|e.equityCurve|] == e.equityCurve
    ensures |e.trades| <= |res.0.trades| && res.0.trades[..|e.trades|] == e.trades
    ensures res.1 < |symbols| ==> !GateOpen(rm, res.0)
    ensures UniqueKeys(e.positions) ==> UniqueKeys(res.0.positions)
    ensures |e.positions| <= e.cfg.maxOpenPositions ==> |res.0.positions| <= e.cfg.maxOpenPositions
    ensures !GateOpen(rm, e) ==> res == (e, 0)
    ensures GateOpen(rm, e) && |symbols| > 0 ==> res.1 > 0
    ensures rm.startOfDayEquity.None? && rm.startOfWeekEquity.None? ==> res.1 == |symbols|
  {
    var step := Stepper(time, candles, strategy);
    StepKeeps(e, time, candles, strategy);
    GatedLoop.Preserves(Gate(rm), step, Keeps(e), e, symbols);
    GatedLoop.AppendsPerItem(Gate(rm), step, Keeps(e), Curve(), e, symbols);
    GatedLoop.Grows(Gate(rm), step, TradeLog(), e, symbols);
    if rm.startOfDayEquity.None? && rm.startOfWeekEquity.None? then
      NoBaselineGateOpen(rm);
      GatedLoop.OpenGateRunsAll(Gate(rm), step, e, symbols);
      GatedLoop.Run(Gate(rm), step, e, symbols)
    else
      GatedLoop.Run(Gate(rm), step, e, symbols)
  }

  /** Symbols are processed in list order: a loop the gate stops inside `xs`
      never reaches the symbols after them... */
  lemma StopInPrefixSkipsRest(rm: Risk.RiskManager, e: Engine.Engine, xs: seq<Symbol>, ys: seq<Symbol>, time: Timestamp,
                              candles: Candles, strategy: Strategy)
    requires Ready(e) && SaneStrategy(strategy)
    requires ProcessSymbols(rm, e, xs, time, candles, strategy).1 < |xs|
    ensures ProcessSymbols(rm, e, xs + ys, time, candles, strategy) == ProcessSymbols(rm, e, xs, time, candles, strategy)
  {
    GatedLoop.StoppedBeforeRest(Gate(rm), Stepper(time, candles, strategy), e, xs, ys);
  }

  /** ...and a loop that gets through all of `xs` continues over `ys` from
      where `xs` left the engine. */
  lemma PrefixThenRest(rm: Risk.RiskManager, e: Engine.Engine, xs: seq<Symbol>, ys: seq<Symbol>, time: Timestamp,
                       candles: Candles, strategy: Strategy)
    requires Ready(e) && SaneStrategy(strategy)
    requires ProcessSymbols(rm, e, xs, time, candles, strategy).1 == |xs|
    ensures var mid := ProcessSymbols(rm, e, xs, time, candles, strategy).0;
      && ProcessSymbols(rm, e, xs + ys, time, candles, strategy).0 == ProcessSymbols(rm, mid, ys, time, candles, strategy).0
      && ProcessSymbols(rm, e, xs + ys, time, candles, strategy).1 == |xs| + ProcessSymbols(rm, mid, ys, time, candles, strategy).1
  {
    GatedLoop.ThroughThenRest(Gate(rm), Stepper(time, candles, strategy), e, xs, ys);
  }

  /** A step changes the latest price of its own symbol only. */
  lemma StepPricesOwnSymbol(time: Timestamp, candles: Candles, strategy: Strategy)
    ensures forall t, x, y :: y != x ==> PriceView()(Stepper(time, candles, strategy)(t, x), y) == PriceView()(t, y)
  {
    var step := Stepper(time, candles, strategy);
    forall t, x, y | y != x ensures PriceView()(step(t, x), y) == PriceView()(t, y) {
      assert step(t, x) == Step(t, x, time, candles, strategy);
    }
  }

  /** A step from a ready engine prices its symbol at the bar's close. */
  lemma StepPricesAtClose(time: Timestamp, candles: Candles, strategy: Strategy)
    requires SaneStrategy(strategy)
    ensures forall t, x :: Ready(t) ==>
      Ready(Stepper(time, candles, strategy)(t, x))
      && PriceView()(Stepper(time, candles, strategy)(t, x), x) == CloseAt(candles, time)(x)
  {
    var step := Stepper(time, candles, strategy);
    forall t, x | Ready(t) ensures Ready(step(t, x)) && PriceView()(step(t, x), x) == CloseAt(candles, time)(x) {
      assert step(t, x) == Step(t, x, time, candles, strategy);
    }
  }

  /** A step changes the position of its own symbol only. */
  lemma StepMovesOwnPosition(time: Timestamp, candles: Candles, strategy: Strategy)
    ensures forall t, x, y :: y != x ==> PositionView()(Stepper(time, candles, strategy)(t, x), y) == PositionView()(t, y)
  {
    var step := Stepper(time, candles, strategy);
    forall t, x, y | y != x ensures PositionView()(step(t, x), y) == PositionView()(t, y) {
      assert step(t, x) == Step(t, x, time, candles, strategy);
    }
  }

  /** The loop leaves the latest price of a symbol it did not process as it
      was. */
  lemma UnvisitedPriceUntouched(rm: Risk.RiskManager, e: Engine.Engine, symbols: seq<Symbol>, time: Timestamp,
                                candles: Candles, strategy: Strategy, k: Symbol)
    requires Ready(e) && SaneStrategy(strategy)
    ensures var res := ProcessSymbols(rm, e, symbols, time, candles, strategy);
      k !in symbols[..res.1] ==> PriceOf(res.0, k) == PriceOf(e, k)
  {
    StepPricesOwnSymbol(time, candles, strategy);
    GatedLoop.Untouched(Gate(rm), Stepper(time, candles, strategy), PriceView(), e, symbols, k);
  }

  /** A processed symbol's latest price is its bar's close at this timestamp. */
  lemma ProcessedSymbolPriced(rm: Risk.RiskManager, e: Engine.Engine, symbols: seq<Symbol>, time: Timestamp,
                              candles: Candles, strategy: Strategy, i: nat)
    requires Ready(e) && SaneStrategy(strategy)
    ensures var res := ProcessSymbols(rm, e, symbols, time, candles, strategy);
      i < res.1 ==> PriceOf(res.0, symbols[i]) == Some(candles(symbols[i], time).close)
  {
    StepPricesOwnSymbol(time, candles, strategy);
    StepPricesAtClose(time, candles, strategy);
    var ready := (t: Engine.Engine) => Ready(t);
    GatedLoop.Visited(Gate(rm), Stepper(time, candles, strategy), ready, PriceView(), CloseAt(candles, time), e, symbols, i);
  }

  /** The loop leaves the position of a symbol it did not process as it was. */
  lemma UnvisitedSymbolUntouched(rm: Risk.RiskManager, e: Engine.Engine, symbols: seq<Symbol>, time: Timestamp,
                                 candles: Candles, strategy: Strategy, k: Symbol)
    requires Ready(e) && SaneStrategy(strategy)
    ensures var res := ProcessSymbols(rm, e, symbols, time, candles, strategy);
      k !in symbols[..res.1] ==> Get(res.0.positions, k) == Get(e.positions, k)
  {
    StepMovesOwnPosition(time, candles, strategy);
    GatedLoop.Untouched(Gate(rm), Stepper(time, candles, strategy), PositionView(), e, symbols, k);
  }

  /** The outer loop over the timestamps. */
  function RunFrom(rm: Risk.RiskManager, e: Engine.Engine, times: seq<Timestamp>, symbols: seq<Symbol>,
                   candles: Candles, strategy: Strategy): (r: Engine.Engine)
    requires Ready(e) && SaneStrategy(strategy)
    ensures Ready(r) && r.cfg == e.cfg
    decreases |times|
  {
    if |times| == 0 then e
    else RunFrom(rm, ProcessSymbols(rm, e, symbols, times[0], candles, strategy).0, times[1..], symbols, candles, strategy)
  }

  lemma RunFromUnfolds(rm: Risk.RiskManager, e: Engine.Engine, times: seq<Timestamp>,
                       symbols: seq<Symbol>, candles: Candles, strategy: Strategy)
    requires Ready(e) && SaneStrategy(strategy) && |times| > 0
    ensures RunFrom(rm, e, times, symbols, candles, strategy)
         == RunFrom(rm, ProcessSymbols(rm, e, symbols, times[0], candles, strategy).0, times[1..], symbols, candles, strategy)
  {
  }

  /** The run only appends to the equity curve... */
  lemma {:induction false} RunExtendsCurve(rm: Risk.RiskManager, e: Engine.Engine, times: seq<Timestamp>,
                                           symbols: seq<Symbol>, candles: Candles, strategy: Strategy)
    requires Ready(e) && SaneStrategy(strategy)
    ensures var r := RunFrom(rm, e, times, symbols, candles, strategy);
      |e.equityCurve| <= |r.equityCurve| && r.equityCurve[..|e.equityCurve|] == e.equityCurve
    decreases |times|
  {
    if |times| > 0 {
      var next := ProcessSymbols(rm, e, symbols, times[0], candles, strategy).0;
      RunExtendsCurve(rm, next, times[1..], symbols, candles, strategy);
      RunFromUnfolds(rm, e, times, symbols, candles, strategy);
      var r := RunFrom(rm, next, times[1..], symbols, candles, strategy);
      assert r.equityCurve[..|next.equityCurve|][..|e.equityCurve|] == r.equityCurve[..|e.equityCurve|];
    }
  }

  /** ...at most one point per symbol and timestamp. */
  lemma {:induction false} RunCurveBounded(rm: Risk.RiskManager, e: Engine.Engine, times: seq<Timestamp>,
                                           symbols: seq<Symbol>, candles: Candles, strategy: Strategy)
    requires Ready(e) && SaneStrategy(strategy)
    ensures |RunFrom(rm, e, times, symbols, candles, strategy).equityCurve| <= |e.equityCurve| + Cells(|times|, |symbols|)
    decreases |times|
  {
    if |times| > 0 {
      var next := ProcessSymbols(rm, e, symbols, times[0], candles, strategy).0;
      RunCurveBounded(rm, next, times[1..], symbols, candles, strategy);
      RunFromUnfolds(rm, e, times, symbols, candles, strategy);
      var r := RunFrom(rm, next, times[1..], symbols, candles, strategy);
      OneRowAtMost(|e.equityCurve|, |next.equityCurve|, |r.equityCurve|, |times|, |times[1..]|, |symbols|);
    }
  }

  /** The run only appends to the trade log. */
  lemma {:induction false} RunExtendsTrades(rm: Risk.RiskManager, e: Engine.Engine, times: seq<Timestamp>,
                                            symbols: seq<Symbol>, candles: Candles, strategy: Strategy)
    requires Ready(e) && SaneStrategy(strategy)
    ensures var r := RunFrom(rm, e, times, symbols, candles, strategy);
      |e.trades| <= |r.trades| && r.trades[..|e.trades|] == e.trades
    decreases |times|
  {
    if |times| > 0 {
      var next := ProcessSymbols(rm, e, symbols, times[0], candles, strategy).0;
      RunExtendsTrades(rm, next, times[1..], symbols, candles, strategy);
      RunFromUnfolds(rm, e, times, symbols, candles, strategy);
      var r := RunFrom(rm, next, times[1..], symbols, candles, strategy);
      assert r.trades[..|next.trades|][..|e.trades|] == r.trades[..|e.trades|];
    }
  }

  /** The run keeps at most one position per symbol and never holds more
      than the configured maximum. */
  lemma {:induction false} RunKeepsPositionLimits(rm: Risk.RiskManager, e: Engine.Engine, times: seq<Timestamp>,
                                                  symbols: seq<Symbol>, candles: Candles, strategy: Strategy)
    requires Ready(e) && SaneStrategy(strategy)
    ensures var r := RunFrom(rm, e, times, symbols, candles, strategy);
      && (UniqueKeys(e.positions) ==> UniqueKeys(r.positions))
      && (|e.positions| <= e.cfg.maxOpenPositions ==> |r.positions| <= e.cfg.maxOpenPositions)
    decreases |times|
  {
    if |times| > 0 {
      var next := ProcessSymbols(rm, e, symbols, times[0], candles, strategy).0;
      RunKeepsPositionLimits(rm, next, times[1..], symbols, candles, strategy);
      RunFromUnfolds(rm, e, times, symbols, candles, strategy);
    }
  }

  /** The number of cells in a grid of `rows` rows of `width` cells, counted
      row by row. */
  function Cells(rows: nat, width: nat): nat
  {
    if rows == 0 then 0 else width + Cells(rows - 1, width)
  }

  /** A first row of at most `width` cells followed by at most `rows - 1`
      more rows... */
  lemma OneRowAtMost(start: nat, mid: nat, end: nat, rows: nat, rest: nat, width: nat)
    requires rows == rest + 1 && start <= mid <= start + width && end <= mid + Cells(rest, width)
    ensures end <= start + Cells(rows, width)
  {
  }

  /** ...and the same with full rows. */
  lemma OneFullRow(start: nat, mid: nat, end: nat, rows: nat, rest: nat, width: nat)
    requires rows == rest + 1 && mid == start + width && end == mid + Cells(rest, width)
    ensures end == start + Cells(rows, width)
  {
  }

  lemma {:induction false} CellsIsProduct(rows: nat, width: nat)
    ensures Cells(rows, width) == rows * width
  {
    if rows > 0 {
      CellsIsProduct(rows - 1, width);
    }
  }

  /** Once the gate rejects the engine's equity the rest of the run changes
      nothing: equity only moves inside `on_candle`, which no longer runs, and
      the runner never moves the baselines. */
  lemma {:induction false} HaltIsPermanent(rm: Risk.RiskManager, e: Engine.Engine, times: seq<Timestamp>,
                                           symbols: seq<Symbol>, candles: Candles, strategy: Strategy)
    requires Ready(e) && SaneStrategy(strategy)
    requires !GateOpen(rm, e)
    ensures RunFrom(rm, e, times, symbols, candles, strategy) == e
    decreases |times|
  {
    if |times| > 0 {
      HaltIsPermanent(rm, e, times[1..], symbols, candles, strategy);
    }
  }

  /** A timestamp cut short by the gate ends the run's progress: the engine
      after it is the engine at the end of the run. */
  lemma HaltedTimestampEndsRun(rm: Risk.RiskManager, e: Engine.Engine, times: seq<Timestamp>,
                               symbols: seq<Symbol>, candles: Candles, strategy: Strategy)
    requires Ready(e) && SaneStrategy(strategy)
    requires |times| > 0
    requires ProcessSymbols(rm, e, symbols, times[0], candles, strategy).1 < |symbols|
    ensures RunFrom(rm, e, times, symbols, candles, strategy) == ProcessSymbols(rm, e, symbols, times[0], candles, strategy).0
  {
    var next := ProcessSymbols(rm, e, symbols, times[0], candles, strategy).0;
    HaltIsPermanent(rm, next, times[1..], symbols, candles, strategy);
  }

  /** With no usable baseline the gate never fires, so every timestamp
      processes every symbol and appends one equity point per symbol. */
  lemma {:induction false} NoBaselineProcessesEverything(rm: Risk.RiskManager, e: Engine.Engine, times: seq<Timestamp>,
                                                         symbols: seq<Symbol>, candles: Candles, strategy: Strategy)
    requires Ready(e) && SaneStrategy(strategy)
    requires rm.startOfDayEquity.None? && rm.startOfWeekEquity.None?
    ensures |RunFrom(rm, e, times, symbols, candles, strategy).equityCurve| == |e.equityCurve| + Cells(|times|, |symbols|)
    decreases |times|
  {
    if |times| > 0 {
      var next := ProcessSymbols(rm, e, symbols, times[0], candles, strategy).0;
      NoBaselineProcessesEverything(rm, next, times[1..], symbols, candles, strategy);
      RunFromUnfolds(rm, e, times, symbols, candles, strategy);
      var r := RunFrom(rm, next, times[1..], symbols, candles, strategy);
      OneFullRow(|e.equityCurve|, |next.equityCurve|, |r.equityCurve|, |times|, |times[1..]|, |symbols|);
    }
  }


  // ---------- The whole backtest ----------

  /** How the results step ends: no trades, a zero running peak in the
      drawdown (a float division by zero), or the metrics. */
  datatype Outcome = NoTrades | ZeroPeak | Summary(report: Report)

  /** The trades' `return_pct` column. */
  function Returns(trades: seq<Engine.Trade>): (rs: seq<real>)
    ensures |rs| == |trades|
    ensures forall i :: 0 <= i < |trades| ==> rs[i] == trades[i].returnPct
  {
    if |trades| == 0 then [] else [trades[0].returnPct] + Returns(trades[1..])
  }

  /** The runner's results block on a finished engine. */
  function Results(e: Engine.Engine, initialEquity: real): (o: Outcome)
    requires initialEquity != 0.0
    ensures o.NoTrades? <==> |e.trades| == 0
    ensures o.ZeroPeak? <==> |e.trades| > 0 && (|e.equityCurve| == 0 || !PeaksNonZero(e.equityCurve))
    ensures o.Summary? ==> RunnerMetrics(Returns(e.trades), e.equityCurve, e.equity, initialEquity) == Some(o.report)
    ensures o.Summary? ==> o.report.trades == |e.trades| && o.report.finalEquity == e.equity
  {
    if |e.trades| == 0 then NoTrades
    else if |e.equityCurve| == 0 || !PeaksNonZero(e.equityCurve) then ZeroPeak
    else Summary(RunnerMetrics(Returns(e.trades), e.equityCurve, e.equity, initialEquity).value)
  }

  /** The runner's risk set-up: a default risk manager with both baselines
      reset to the initial equity. */
  function StartRisk(initialEquity: real): (rm: Risk.RiskManager)
    ensures rm.cfg == Risk.DefaultConfig
    ensures rm.startOfDayEquity == Some(initialEquity) && rm.startOfWeekEquity == Some(initialEquity)
  {
    Risk.ResetWeekly(Risk.ResetDaily(Risk.NewRiskManager(Risk.DefaultConfig), initialEquity), initialEquity)
  }

  /** The runner's set-up, then the run over the timestamps from a default
      engine at 2x leverage, then the results block. */
  function Backtest(initialEquity: real, times: seq<Timestamp>, symbols: seq<Symbol>,
                    candles: Candles, strategy: Strategy): (res: (Engine.Engine, Outcome))
    requires initialEquity != 0.0 && SaneStrategy(strategy)
    ensures res.0 == RunFrom(StartRisk(initialEquity), Engine.Init(Engine.DefaultConfig(initialEquity)), times, symbols, candles, strategy)
    ensures res.0.cfg == Engine.DefaultConfig(initialEquity)
    ensures |res.0.equityCurve| <= |times| * |symbols|
    // The first gate check passes, so a run with any bar to take records one.
    ensures initialEquity > 0.0 && |times| > 0 && |symbols| > 0 ==> |res.0.equityCurve| > 0
    ensures |res.0.positions| <= res.0.cfg.maxOpenPositions && UniqueKeys(res.0.positions)
    ensures res.1 == Results(res.0, initialEquity)
  {
    var rm := StartRisk(initialEquity);
    var e0 := Engine.Init(Engine.DefaultConfig(initialEquity));
    var e := RunFrom(rm, e0, times, symbols, candles, strategy);
    RunCurveBounded(rm, e0, times, symbols, candles, strategy);
    RunKeepsPositionLimits(rm, e0, times, symbols, candles, strategy);
    CellsIsProduct(|times|, |symbols|);
    if initialEquity > 0.0 && |times| > 0 && |symbols| > 0 then
      FirstRunRecords(initialEquity, times, symbols, candles, strategy);
      (e, Results(e, initialEquity))
    else
      (e, Results(e, initialEquity))
  }

  /** With a positive initial equity the first timestamp processes at least
      its first symbol, and the rest of the run keeps that curve point. */
  lemma FirstRunRecords(initialEquity: real, times: seq<Timestamp>, symbols: seq<Symbol>,
                        candles: Candles, strategy: Strategy)
    requires initialEquity > 0.0 && |times| > 0 && |symbols| > 0 && SaneStrategy(strategy)
    ensures |RunFrom(StartRisk(initialEquity), Engine.Init(Engine.DefaultConfig(initialEquity)), times, symbols, candles, strategy).equityCurve| > 0
  {
    var rm := StartRisk(initialEquity);
    var e0 := Engine.Init(Engine.DefaultConfig(initialEquity));
    FirstCheckPasses(initialEquity);
    var next := ProcessSymbols(rm, e0, symbols, times[0], candles, strategy).0;
    RunFromUnfolds(rm, e0, times, symbols, candles, strategy);
    RunExtendsCurve(rm, next, times[1..], symbols, candles, strategy);
  }

  /** The first symbol of the first timestamp always passes the gate: the
      baselines were just reset to the engine's own starting equity. */
  lemma FirstCheckPasses(initialEquity: real)
    requires initialEquity > 0.0
    ensures GateOpen(StartRisk(initialEquity), Engine.Init(Engine.DefaultConfig(initialEquity)))
  {
    Risk.ResetThenApproves(Risk.NewRiskManager(Risk.DefaultConfig), initialEquity);
  }
}
